=== FILE: README.md ===
# tui-portfolio core, modelled in Dafny

`tui-portfolio` serves a terminal portfolio over SSH. Each connection gets
a Bubble Tea model that has:

- a current section (About, Experience, Skills, Projects, Contact, Live, and a separate Help page);
- a scrolling viewport for the section's text;
- a tick clock;
- an "effects" switch;
- a list of explosion particles, which fall under gravity and fade out.

A read-only data loader supplies the portfolio content.

This project models four parts:

- the message handler and its key dispatch;
- the particle engine (spawning a burst, advancing it one tick, rasterising it onto a canvas);
- the compositor that lays the canvas over the viewport text;
- the data loader's getters and validation, plus the parts of the content renderer whose behaviour depends on the state (the skill bar, the experience list, the rotating tech fact).

The modules:

| module | file | models |
|---|---|---|
| `Wrappers` | wrappers.dfy | `Option`, standing for Go's nil pointer |
| `GoMath` | gomath.dfy | Go's `/` and `%` on `int` (truncating toward zero); `int(float)` |
| `Text` | text.dfy | `strings.Split`, `strings.Join`, `strings.Repeat`, `%-Ns`/`%Nd` padding |
| `KeyBindings` | keybindings.dfy | `keybindings.go` |
| `Data` | data_loader.dfy | `data_loader.go` |
| `Particles` | particles.dfy | `addExplosion`, `updateParticles`, `renderParticles` |
| `Compositor` | compositor.dfy | `combineLine`, `overlayParticles` |
| `Content` | content.dfy | `renderSkillBar`, `renderExperience`, the fact line of `renderAbout` |
| `Model` | model.dfy | sections, `NewPortfolioModel`, `Update`, the main area of `View` |

Floating-point positions, velocities and lives are idealised as exact
fixed-point thousandths:

- 1 cell is 1000 units.
- Gravity adds 50 to the vertical velocity per tick.
- Air resistance is `vx * 99 / 100`, truncated.
- Life drops by 15 per tick, from a start in [800, 1200).
- A particle is dropped when its life is <= 0 or it is 5 cells outside the viewport's left, right or bottom edge.

`int(p.x)` truncates toward zero, so it is `TruncDiv(x, 1000)`.

The random source becomes an input (a `Burst`): the extra count beyond
20, in [0, 10), and, for each particle, its offsets in [-2, 2) cells, its life,
its glyph index and its colour index. `ValidBurst` states those ranges.

The viewport's text is modelled by what it was rendered from: a
`Snapshot` of section, tick and effects flag. `updateContent` is
`Refresh`, which takes a new snapshot and scrolls to the top. Messages the
handler does not consume go to the viewport. The model returns them as
`FromViewport(msg)` and leaves the session unchanged.

Behaviour worth noting:

- **Effects off.** With effects off, a tick neither advances nor removes particles (`model.go:104-107`). The frozen particles are also hidden, because `View` lays the canvas over the text only while effects are on (`model.go:349`). They reappear, where they stopped, when effects come back on.
- **"x" with effects off.** The explosion key spawns particles even when effects are off. `Update` has no guard for it (`model.go:134-136`).
- **Skill bar range.** With effects off, the raw percentage sizes the bar. `strings.Repeat` panics on a negative count. The fill is `int(30 * p / 100)`, truncated, so the bar is drawn exactly for -3 <= p <= 103, not only for 0..100 (`BarWithoutEffects`).
- **Help toggle.** Pressing Help twice from an ordinary section lands on About, not where it started (`model.go:124-128`).
- **The loader.** `model.go:55` builds the model from a width and a height only, and the struct declares no loader field. Yet `content.go:14` and the server's entry point use a `dataLoader`. The model keeps the loader in the `Session` as a read-only field and proves that no message changes it.

## Model

| member | source | states |
|---|---|---|
| GoMath.TruncDiv | cmd/server/model.go:135 | Go integer division truncates toward zero: the magnitude of the quotient is the floor of the magnitudes, and the sign follows the dividend |
| GoMath.TruncRem | cmd/server/data_loader.go:186 | Go's `%` result has the magnitude of the Euclidean remainder and the dividend's sign |
| GoMath.NegativeRemainder | cmd/server/data_loader.go:186 | a negative index gives a negative remainder (-1 % n == -1), which would be an out-of-range index |
| GoMath.TruncDivNearZero | cmd/server/model.go:253 | `int()` of a coordinate strictly between -1 and 1 cells is 0 |
| Text.Split | cmd/server/model.go:281-282 | `strings.Split` yields one more piece than there are separators, and no piece contains the separator |
| Text.JoinSplit | cmd/server/model.go:305 | joining the pieces of a split with the separator gives back the original text |
| Text.SplitJoin | cmd/server/model.go:281-305 | splitting a join of separator-free lines gives back the lines |
| Text.Repeat | cmd/server/content.go:196 | `strings.Repeat` of a rune n times has length n, and every rune is that rune |
| Text.PadRight | cmd/server/content.go:198 | `%-15s` keeps the text as a prefix and fills the rest, up to at least the width, with spaces |
| Text.PadLeft | cmd/server/content.go:198 | `%3d` keeps the digits as a suffix and fills the front, up to at least the width, with spaces |
| Text.NatDigits | cmd/server/content.go:198 | the digits of a natural number denote it, with no leading zero except for 0 itself |
| Text.Decimal | cmd/server/content.go:198 | the rendering starts with '-' exactly for negative numbers; the rest is digits that denote the magnitude, with no leading zero except for 0 itself |
| Text.DecimalInjective | cmd/server/content.go:198 | different numbers print differently |
| KeyBindings.DefaultKeyMap | cmd/server/keybindings.go:16-51 | every binding has at least one key, a help key and a help description, and no two bindings share a description |
| KeyBindings.ActionsOf | cmd/server/keybindings.go:15-50 | an action is among a key's actions exactly when one of its binding's keys is that key |
| KeyBindings.BindingKeys | cmd/server/keybindings.go:15-50 | for each of the eight actions, the exact set of keys bound to it (q/ctrl+c, h/?, right/l, left/h, tab, shift+tab, up/k, down/j) |
| KeyBindings.OnlyHIsShared | cmd/server/keybindings.go:21-32 | "h" is the only key bound to two actions, Help and Prev; every other key has at most one |
| Data.IsLoadedAgreement | cmd/server/data_loader.go:117-119 | "loaded" agrees with every pointer getter returning non-nil and with the validator not reporting "no data loaded" |
| Data.Message | cmd/server/data_loader.go:211-236 | every validation failure has a non-empty message |
| Data.MessageInjective | cmd/server/data_loader.go:211-236 | different failures have different messages |
| Data.GetData | cmd/server/data_loader.go:112-114 | the data is present exactly when the loader is loaded |
| Data.GetPersonalInfo | cmd/server/data_loader.go:122-127 | nil before loading; afterwards, the loaded personal record |
| Data.GetExperiences | cmd/server/data_loader.go:130-135 | empty before loading; afterwards, the loaded experiences in file order |
| Data.FirstCurrent | cmd/server/data_loader.go:139-148 | the index found is flagged current and no earlier entry is; none is found only when no entry is current |
| Data.GetCurrentExperience | cmd/server/data_loader.go:138-149 | nil exactly when nothing is loaded or no entry is current; otherwise a current entry from the list |
| Data.GetSkills | cmd/server/data_loader.go:152-157 | an empty map before loading; afterwards, the loaded category map |
| Data.GetSkillsByCategory | cmd/server/data_loader.go:160-170 | the category's skills when loaded and the category exists; empty otherwise |
| Data.GetTechFacts | cmd/server/data_loader.go:173-178 | empty before loading; afterwards, the loaded facts |
| Data.GetRandomTechFact | cmd/server/data_loader.go:181-187 | the fixed "Loading awesome tech facts..." line when there are no facts; otherwise the fact at the index modulo the count, which is one of the facts |
| Data.GetAsciiArt | cmd/server/data_loader.go:190-195 | nil exactly before loading; afterwards, the loaded art |
| Data.GetContact | cmd/server/data_loader.go:198-203 | nil exactly before loading; afterwards, the contact inside the personal record |
| Data.ValidateData | cmd/server/data_loader.go:211-236 | valid exactly when loaded with a name, email, experience and skill category; otherwise the first failing check, in the source's order, with each error's condition stated both ways |
| Data.UnloadedGettersAreNil | cmd/server/data_loader.go:116-203 | before loading, every getter returns nil or empty, and the fact getter returns the fallback line |
| Data.TechFactPeriodic | cmd/server/data_loader.go:181-187 | the fact for an index repeats after as many indices as there are facts |
| Particles.Spawn | cmd/server/model.go:172-213 | an explosion appends between 20 and 29 particles and keeps the old ones as a prefix; each new particle is valid, has life at least 0.8, and starts within 2 cells of the centre |
| Particles.Step | cmd/server/model.go:218-222 | one tick moves a particle by its velocity, adds gravity to the vertical velocity, shrinks the horizontal speed without changing its sign, lowers the life by 0.015, and keeps glyph and colour |
| Particles.DragDamps | cmd/server/model.go:221 | air resistance never speeds a particle up, and strictly slows any horizontal motion |
| Particles.AliveRegion | cmd/server/model.go:225 | a kept particle has positive life and lies within 5 cells of the viewport's left, right and bottom edges; moving it up keeps it |
| Particles.AsWrittenPaletteWidths | cmd/server/model.go:173 | the palette as spelled in the source has 15 entries, of which only "*" and "+" are a single rune |
| Particles.SurvivorsMembers | cmd/server/model.go:225-227 | a particle survives the removal test exactly when it was in the list and is alive and in bounds |
| Particles.UpdateParticles | cmd/server/model.go:215-229 | walking backwards, updating in place and cutting out the dead gives the stable filter of the stepped particles (`Advance`) |
| Particles.StepAllPointwise | cmd/server/model.go:218-222 | stepping the list steps each particle in place |
| Particles.AllDieWithin | cmd/server/model.go:222-226 | particles whose life is at most 0.015·k are all gone after k ticks |
| Particles.ValidParticlesDieWithin80 | cmd/server/model.go:208 | a particle life below 1.2 means every particle is gone within 80 ticks |
| Particles.AdvanceKeepsValid | cmd/server/model.go:215-229 | a tick keeps every surviving particle's life below 1.2 and its glyph and colour in the palettes |
| Particles.Blank | cmd/server/model.go:243-249 | the canvas is height rows of width spaces |
| Particles.PaintCell | cmd/server/model.go:250-264 | a cell shows the glyph of the last particle whose truncated position lands on it; with none, the cell is unchanged |
| Particles.PaintNoNewline | cmd/server/model.go:250-264 | painting glyphs that are not newlines puts no newline into a row |
| Particles.RenderParticles | cmd/server/model.go:231-240 | the rendering is empty exactly when there are no particles or the viewport has no area |
| Particles.SplitRowsText | cmd/server/model.go:266-272 | each row followed by a newline splits back into the rows plus one empty line |
| Particles.RenderedShape | cmd/server/model.go:231-273 | a non-empty rendering splits into the height's rows of the painted canvas, each of the width, then an empty line |
| Particles.NearEdgeDrawsInColumnZero | cmd/server/model.go:253 | truncation toward zero draws a particle up to one cell left of the edge in column 0 |
| Compositor.CombineLine | cmd/server/model.go:308-330 | the merged line is as long as the longer input; each rune is the overlay's rune where it is not a space, else the base's rune, else a space |
| Compositor.CombineEmptyOverlay | cmd/server/model.go:319-326 | merging an empty overlay returns the base line |
| Compositor.CombineSelf | cmd/server/model.go:308-330 | merging a line with itself returns it |
| Compositor.CombineNoNewline | cmd/server/model.go:308-330 | merging two lines without newlines gives a line without newlines |
| Compositor.Overlay | cmd/server/model.go:280-305 | the result's lines are the pairwise merges of the base's and the canvas's lines; there are as many as the longer side has; an empty canvas returns the base |
| Compositor.OverlayLineLengths | cmd/server/model.go:292-302 | each merged line is as long as the longer of its base and canvas lines |
| Compositor.OverlaySelf | cmd/server/model.go:275-306 | overlaying a text on itself returns it |
| Compositor.OverlayParticles | cmd/server/model.go:275-278 | no particles or no area returns the base text unchanged |
| Compositor.OverlayParticlesLineCount | cmd/server/model.go:275-306 | with particles, the frame has as many lines as the longer of the base and the canvas (height + 1) |
| Compositor.OverlayParticlesCell | cmd/server/model.go:250-264 | a frame cell inside the viewport shows the last glyph landing there; otherwise the base rune, or a space past the end of the base line |
| Compositor.JoinCellsOverflows | cmd/server/model.go:266-272 | a canvas row whose cells are non-empty and one of which holds more than one rune joins into more runes than the row has cells |
| Compositor.AsWrittenGlyphShiftsOverlay | cmd/server/model.go:173 | with the palette as spelled, a particle in column 0 over "abc" turns the line into five runes and wipes out "bc"; with one-rune glyphs it replaces only the "a" |
| Content.AnimatedPercentage | cmd/server/content.go:188-193 | with effects, the pulsed percentage clamped to [0, 100], in each of the three cases; without, the raw percentage |
| Content.FilledInRange | cmd/server/content.go:195 | for a percentage in [0, 100] the fill is 30·p/100 rounded down, which lies in [0, 30] |
| Content.FilledMonotone | cmd/server/content.go:195 | a higher percentage never fills fewer cells |
| Content.SkillBar | cmd/server/content.go:195-196 | the bar exists exactly when the fill lies in [0, 30]; it is 30 runes, full below the fill and empty from it |
| Content.BarDrawnWithEffects | cmd/server/content.go:188-196 | with effects on, the bar never panics |
| Content.BarWithoutEffects | cmd/server/content.go:195-196 | with effects off, the bar is drawn exactly for percentages in [-3, 103] |
| Content.SkillLine | cmd/server/content.go:198-205 | the line exists exactly when its bar does |
| Content.SkillLineFields | cmd/server/content.go:198-203 | a skill line holds the name at column 2, the bar at its start column, and the experience text inside the closing parenthesis, with the stated total length |
| Content.SkillLineNumber | cmd/server/content.go:198-203 | the percentage field ends with the decimal digits of the raw percentage |
| Content.SkillLinePercentValue | cmd/server/content.go:198-203 | for a non-negative percentage the printed digits denote exactly that percentage |
| Content.LineOfFields | cmd/server/content.go:198-203 | each field of the skill layout sits at its own offset, the name and digits inside their padding |
| Content.SkillLineShowsRawPercentage | cmd/server/content.go:198-203 | two renderings of a skill agree on every rune outside the bar, so the printed number is the raw percentage whatever the pulse |
| Content.MetaLine | cmd/server/content.go:131-135 | the period starts at column 2 and the location after the separator; a current entry's line ends with the marker, another's ends with the location |
| Content.MetaLineMarksCurrent | cmd/server/content.go:132-135 | a current entry's meta line is the plain meta line plus " • 🟢 Current"; other entries get no marker |
| Content.ExperienceBlock | cmd/server/content.go:127-150 | with styling as the identity, an entry starts with "title @ company" and a newline, has its meta line right after, and ends with a newline |
| Content.DetailLinesShow | cmd/server/content.go:139-142 | each detail gets its own bullet line |
| Content.BlockShowsDetail | cmd/server/content.go:138-141 | each detail of an entry appears in its block as a bullet line |
| Content.BlocksShowMeta | cmd/server/content.go:123-151 | each entry's meta line occurs in the rendered list |
| Content.RenderExperience | cmd/server/content.go:109-154 | with no experiences, the title and the fallback sentence; otherwise the meta line of every entry occurs in the text |
| Content.AboutFact | cmd/server/content.go:94-95 | the fact shown at a tick is the fallback, or the fact at (tick / 50) modulo the count |
| Content.FactSteadyFor50Ticks | cmd/server/content.go:94 | the fact does not change within a block of 50 ticks |
| Content.FactRotationPeriod | cmd/server/content.go:94 | the facts repeat after 50 ticks per fact |
| Model.SectionOf | cmd/server/model.go:16-26 | the section with a given ordinal has that ordinal |
| Model.NextSection | cmd/server/model.go:481-484 | stepping forward lands in the navigation list |
| Model.PrevSection | cmd/server/model.go:486-493 | stepping back lands in the navigation list |
| Model.NextPrevInverse | cmd/server/model.go:481-493 | forward is +1 and back is -1 modulo 6 on the ordinal; each undoes the other |
| Model.NextNOrd | cmd/server/model.go:481-484 | n steps forward add n modulo 6 to the ordinal |
| Model.NextCycle | cmd/server/model.go:481-484 | six steps forward return to the start, and no fewer do |
| Model.FiveStepsFromAbout | cmd/server/model.go:59-66 | from About, five steps reach Live and the sixth wraps round to About |
| Model.Refresh | cmd/server/model.go:495-499 | re-rendering shows the current section from the top and changes nothing else |
| Model.NewSession | cmd/server/model.go:55-81 | a new session starts on About, not ready, tick 0, no particles, effects on, with the given size and loader and the viewport inset by (4, 8) at the top |
| Model.Position | cmd/server/model.go:119-165 | each handler's place in the switch |
| Model.Resolve | cmd/server/model.go:119-165 | the handler chosen for a key has a guard that holds and no earlier guard that holds; a key falls through only when no guard holds |
| Model.HandleKey | cmd/server/model.go:118-165 | a key never touches the clock, the size, `ready` or the loader; it quits exactly for a Quit key; it reaches the viewport, unchanged, exactly when no case matches; only "x" changes the particles and only "e" the effects flag; a section change re-renders from the top |
| Model.HandleKeyKeepsInv | cmd/server/model.go:118-165 | a key keeps the viewport inset, the clock and every particle valid |
| Model.Update | cmd/server/model.go:89-170 | a message never clears `ready`, moves the clock by at most one (and only with effects on), adds fewer than 30 particles, and leaves the loader alone |
| Model.HTogglesHelp | cmd/server/model.go:120-130 | "h" matches both Help and Prev, and the Help case wins |
| Model.ScrollKeysReachViewport | cmd/server/model.go:168-169 | up/down keys match no case and are passed to the viewport unchanged |
| Model.HelpBlocksNavigation | cmd/server/model.go:137-164 | on the Help page, navigation keys change nothing |
| Model.NavigationSteps | cmd/server/model.go:137-164 | elsewhere, right/l/tab step forward and left/shift+tab step back, never reaching Help, and re-render from the top |
| Model.HelpToggle | cmd/server/model.go:122-130 | the Help key toggles between Help and About and re-renders; pressed twice from an ordinary section it lands on About |
| Model.TickAdvancesWithEffects | cmd/server/model.go:103-116 | a tick re-arms the 50 ms tick; with effects it advances the clock and the particles; without, both freeze; on Live the text is re-rendered with the new clock from the top, elsewhere the viewport is untouched |
| Model.EffectsKeyOnlyFlips | cmd/server/model.go:131-133 | "e" flips the effects flag and changes nothing else |
| Model.ExplodeAppendsBurst | cmd/server/model.go:134-136 | "x" appends 20 to 29 particles within 2 cells of the viewport's centre and changes nothing but the particles, whatever the effects flag |
| Model.ResizeSetsSize | cmd/server/model.go:93-101 | a resize stores the size, insets the viewport by (4, 8), re-renders and marks the session ready |
| Model.UpdateKeepsInv | cmd/server/model.go:89-170 | every message keeps the viewport inset, the clock non-negative and every particle valid |
| Model.RunKeepsReadyAndInv | cmd/server/model.go:89-170 | any sequence of messages keeps the invariant, and once ready stays ready |
| Model.ShortHelpKeysReachTheirCase | cmd/server/keybindings.go:53-55 | every key of the short help reaches the case it advertises |
| Model.FullHelpAdvertisesShadowedKey | cmd/server/keybindings.go:57-63 | the full help advertises "h" for Prev, but "h" never reaches Prev |
| Model.TicksAdvanceParticles | cmd/server/model.go:103-107 | with effects on, n ticks advance the particles n steps |
| Model.AdvanceNSplit | cmd/server/model.go:215-229 | m + n steps are m steps followed by n steps |
| Model.ParticlesGoneAfter80Ticks | cmd/server/model.go:103-107 | from a valid session with effects on, 80 ticks clear every particle |
| Model.ExplosionFadesWithin100Ticks | cmd/server/model.go:134-136 | an explosion from a valid session with effects on is gone 100 ticks later |
| Model.MainContent | cmd/server/model.go:346-350 | with effects off or no particles, the main area is the viewport text as it is |
| Model.MainContentCell | cmd/server/model.go:346-350 | with effects on and particles alive, a cell inside the viewport shows the last particle landing on it, and the viewport's text (or a space) where none lands |

## Left out

- Floating point: positions, velocities and lives are exact thousandths. Float rounding, and `math.Cos`/`math.Sin` for the launch angle, are not modelled. The velocity a burst gives each particle is an unconstrained input.
- `rand`: the random draws are inputs (`Burst`). Their ranges come from `model.go:194-210`, and nothing else about them is assumed.
- Styling is treated as the identity: colours, the faint style for lives below 0.3 (`model.go:258-260`), and the borders, padding and margins of the styles (the content box at `styles.go:93-98`, the fact box at `styles.go:205-211`, and `styles.go:119-126`, `styles.go:132-138`, `styles.go:144-146`) are left out, and so are the ANSI escapes they add. So the statements about where text sits in an entry (`Content.ExperienceBlock`, `Content.MetaLine`) hold for the unstyled text. A canvas cell holds the glyph's rune.
- Compositor.OverlayParticlesCell: in the program every canvas cell is `style.Render(p.char)` (`model.go:255-262`) and the viewport text is styled too, so the rune-by-rune `combineLine` also merges escape sequences, which shifts columns even with a one-rune palette. This lemma and `Model.MainContentCell` describe the overlay of unstyled text.
- The bubbles viewport: scrolling, `View()` and the messages it consumes belong to a library that is not part of this model. Its text is a `Snapshot`.
- `LoadData` and `ReloadData` read a JSON file, which is I/O. A loader is either loaded with data or not.
- `GetData`: returns the data or nil, with no further logic; it is modelled as an `Option`.
- Content rendering: the header, tabs, footer, loading screen, `renderAbout` apart from the fact line, `renderSkills`, `renderContact`, `renderProjects`, `renderLiveDemo`, `renderHelp` and the wall clock are left out. They are static text and styling over data the getters already model. The Live section's clock is wall time.
- `renderSkills` iterates over a Go map, so category order is random. It is not modelled.
- `ShortHelp`/`FullHelp` carry no ensures of their own. Their contents are stated by `Model.ShortHelpKeysReachTheirCase` and `Model.FullHelpAdvertisesShadowedKey`.
- `Init`: returns the first tick command, with no state.
- Both `main.go` files (SSH server and terminal setup) are left out. They only wire the program to the outside world.
- Model.Update: the 64-bit wrap of `animationTick` is not modelled. The tick is an unbounded integer.
- Data.GetRandomTechFact: requires a non-negative index. For a negative index that is not a multiple of the fact count, Go's `%` is negative (`GoMath.NegativeRemainder`) and the slice index panics; a negative multiple selects the first fact. The only caller passes `tick / 50` with a non-negative tick.
- Nil versus empty slices and maps: both are the empty collection. The source only ranges over them or takes their length.
- Content.SkillBar: the Go code panics when the fill is outside [0, 30]. The model returns `None` instead.
- Particles.Glyphs: the palette is one rune per glyph (★ ✦ ✧ ● ◉ ◎ ○ ◯ ◦ • × ▪ ▫ plus "*" and "+"), which a canvas of one rune per cell needs. The source spells 13 of the 15 entries as several runes (see Findings); `Particles.AsWrittenGlyphs` keeps that spelling.
- Particles.Survivors: its own contract states only the length bound. Membership is stated by `Particles.SurvivorsMembers`.

## Findings

| source | as written | input that shows it | evidently intended | confidence | as-written member | corrected member |
|---|---|---|---|---|---|---|
| cmd/server/model.go:173 | 13 of the 15 glyphs are the UTF-8 bytes of ★ ✦ ✧ ● ◉ ◎ ○ ◯ ◦ • × ▪ ▫ read back as Mac Roman, so each is two or three runes; only "*" and "+" are one rune | a "★" particle (entry 1) in column 0 of a 3-column viewport over the line "abc": the joined canvas row is 5 runes, and merging it over "abc" gives the three runes of the entry and two spaces, so "bc" is lost and the row is wider than the viewport | one rune per glyph, so a particle covers exactly its own cell | not executed | Compositor.AsWrittenGlyphShiftsOverlay, Compositor.JoinCellsOverflows, Particles.AsWrittenPaletteWidths | Compositor.OverlayParticlesCell, Particles.RenderedShape |

=== FILE: compositor.dfy ===
/** The compositor: the particle canvas merged over the viewport text,
    line by line and rune by rune, with a non-space canvas rune winning. */
module Compositor {
  import opened GoMath
  import opened Text
  import opened Particles

  /** The rune the merge puts at position `i`: the overlay's rune when it
      has one that is not a space, else the base's rune, else a space. */
  function MergedRune(base: string, overlay: string, i: nat): char
  {
    if i < |overlay| && overlay[i] != ' ' then overlay[i]
    else if i < |base| then base[i]
    else ' '
  }

  function Rest(s: string): string {
    if |s| == 0 then s else s[1..]
  }

  /** `combineLine`: as long as the longer of the two lines, each rune
      chosen by `MergedRune`. */
  function CombineLine(base: string, overlay: string): (r: string)
    ensures |r| == Max(|base|, |overlay|)
    ensures forall i :: 0 <= i < |r| ==> r[i] == MergedRune(base, overlay, i)
    decreases |base| + |overlay|
  {
    if |base| == 0 && |overlay| == 0 then ""
    else
      var tail := CombineLine(Rest(base), Rest(overlay));
      assert forall i :: 0 <= i < |tail| ==> MergedRune(Rest(base), Rest(overlay), i) == MergedRune(base, overlay, i + 1);
      [MergedRune(base, overlay, 0)] + tail
  }

  /** Merging with an empty overlay keeps the line. */
  lemma CombineEmptyOverlay(base: string)
    ensures CombineLine(base, "") == base
  {
  }

  /** Merging a line with itself keeps the line. */
  lemma CombineSelf(line: string)
    ensures CombineLine(line, line) == line
  {
  }

  /** Merging two lines without newlines gives a line without newlines. */
  lemma CombineNoNewline(base: string, overlay: string)
    requires '\n' !in base && '\n' !in overlay
    ensures '\n' !in CombineLine(base, overlay)
  {
    var r := CombineLine(base, overlay);
    assert forall i :: 0 <= i < |r| ==> r[i] == MergedRune(base, overlay, i);
  }

  /** Line `i` of a split text, or the empty line past its end. */
  function LineAt(lines: seq<string>, i: int): string {
    if 0 <= i < |lines| then lines[i] else ""
  }

  /** The merged lines, as many as the longer of the two inputs. */
  function OverlayLines(baseLines: seq<string>, overlayLines: seq<string>): seq<string>
  {
    seq(Max(|baseLines|, |overlayLines|), i => CombineLine(LineAt(baseLines, i), LineAt(overlayLines, i)))
  }

  /** The merge of the two texts: split both at newlines, merge line by
      line, join with newlines. */
  function Overlay(base: string, canvas: string): (r: string)
    ensures Split(r, '\n') == OverlayLines(Split(base, '\n'), Split(canvas, '\n'))
    ensures |Split(r, '\n')| == Max(|Split(base, '\n')|, |Split(canvas, '\n')|)
    ensures canvas == "" ==> r == base
  {
    var bl, cl := Split(base, '\n'), Split(canvas, '\n');
    var lines := OverlayLines(bl, cl);
    assert forall i :: 0 <= i < |lines| ==> '\n' !in LineAt(bl, i) && '\n' !in LineAt(cl, i);
    forall i | 0 <= i < |lines|
      ensures '\n' !in lines[i]
    {
      CombineNoNewline(LineAt(bl, i), LineAt(cl, i));
    }
    SplitJoin(lines, '\n');
    if canvas == "" then
      assert forall i :: 0 <= i < |lines| ==> LineAt(cl, i) == "";
      forall i | 0 <= i < |lines|
        ensures lines[i] == bl[i]
      {
        CombineEmptyOverlay(bl[i]);
      }
      assert lines == bl;
      JoinSplit(base, '\n');
      Join(lines, "\n")
    else
      Join(lines, "\n")
  }

  /** Each merged line is exactly as long as the longer of the two lines
      at that row, so the merge never lengthens a row beyond both inputs. */
  lemma OverlayLineLengths(base: string, canvas: string, i: nat)
    requires i < |Split(Overlay(base, canvas), '\n')|
    ensures |Split(Overlay(base, canvas), '\n')[i]|
            == Max(|LineAt(Split(base, '\n'), i)|, |LineAt(Split(canvas, '\n'), i)|)
  {
  }

  /** Merging a text with itself gives the text back. */
  lemma OverlaySelf(text: string)
    ensures Overlay(text, text) == text
  {
    var lines := Split(text, '\n');
    forall i | 0 <= i < |lines|
      ensures CombineLine(lines[i], lines[i]) == lines[i]
    {
      CombineSelf(lines[i]);
    }
    assert OverlayLines(lines, lines) == lines;
    JoinSplit(text, '\n');
  }

  /** `overlayParticles`: the base text untouched when there are no
      particles, otherwise the base merged with the rendered canvas. */
  function OverlayParticles(base: string, ps: seq<Particle>, w: int, h: int): (r: string)
    ensures |ps| == 0 || w <= 0 || h <= 0 ==> r == base
  {
    if |ps| == 0 then base else Overlay(base, RenderParticles(ps, w, h))
  }

  /** With particles on a viewport of positive area, the frame has one line
      per base line or per canvas row plus the trailing empty line,
      whichever is more. */
  lemma OverlayParticlesLineCount(base: string, ps: seq<Particle>, w: int, h: int)
    requires |ps| > 0 && w > 0 && h > 0
    requires forall k :: 0 <= k < |ps| ==> ValidParticle(ps[k])
    ensures |Split(OverlayParticles(base, ps, w, h), '\n')| == Max(|Split(base, '\n')|, h + 1)
  {
    RenderedShape(ps, w, h);
  }

  /** On a cell of the viewport, the frame shows the glyph of the last
      particle landing there; where no particle lands it shows the base
      text's rune, or a space past the end of the base line. */
  lemma OverlayParticlesCell(base: string, ps: seq<Particle>, w: int, h: int, row: nat, col: nat)
    requires |ps| > 0 && row < h && col < w
    requires forall k :: 0 <= k < |ps| ==> ValidParticle(ps[k])
    ensures var frame := Split(OverlayParticles(base, ps, w, h), '\n');
            var baseLine := LineAt(Split(base, '\n'), row);
            && row < |frame| && col < |frame[row]|
            && ((forall k :: 0 <= k < |ps| ==> !Lands(ps[k], row, col)) ==>
                  frame[row][col] == (if col < |baseLine| then baseLine[col] else ' '))
            && (forall k :: 0 <= k < |ps| && Lands(ps[k], row, col)
                            && (forall j :: k < j < |ps| ==> !Lands(ps[j], row, col))
                            ==> frame[row][col] == ps[k].glyph)
  {
    var canvasLines := Split(RenderParticles(ps, w, h), '\n');
    RenderedShape(ps, w, h);
    var g := Canvas(ps, w, h);
    assert canvasLines[row] == g[row];
    PaintCell(Blank(w, h), ps, w, h, row, col);
    assert ' ' !in Glyphs;
    assert forall k :: 0 <= k < |ps| ==> ps[k].glyph != ' ';
  }

  // ---- The palette as the program text spells it ----------------------------

  /** `strings.Join(row, "")` over a canvas row whose cells hold strings. */
  function JoinCells(cells: seq<string>): string {
    if |cells| == 0 then "" else cells[0] + JoinCells(cells[1..])
  }

  /** A row whose cells are all non-empty and one of which is wider than a
      rune comes out longer than the row has cells, so every rune after
      that cell sits in a column to the right of its own. */
  lemma {:induction false} JoinCellsOverflows(cells: seq<string>, j: nat)
    requires forall i :: 0 <= i < |cells| ==> |cells[i]| >= 1
    requires j < |cells| && |cells[j]| >= 2
    ensures |JoinCells(cells)| > |cells|
    decreases |cells|
  {
    JoinCellsAtLeast(cells[1..]);
    if j > 0 {
      JoinCellsOverflows(cells[1..], j - 1);
    }
  }

  /** A row of non-empty cells is at least as long as it has cells. */
  lemma {:induction false} JoinCellsAtLeast(cells: seq<string>)
    requires forall i :: 0 <= i < |cells| ==> |cells[i]| >= 1
    ensures |JoinCells(cells)| >= |cells|
    decreases |cells|
  {
    if |cells| > 0 {
      JoinCellsAtLeast(cells[1..]);
    }
  }

  /** With the palette as written, one "\u2605" particle in column 0 of a
      three-column row also covers columns 1 and 2 of the base line "abc",
      where no particle lands; the single-rune palette keeps them. */
  lemma AsWrittenGlyphShiftsOverlay()
    ensures var row := JoinCells([AsWrittenGlyphs[1], " ", " "]);
            && |row| == 5
            && CombineLine("abc", row) == ['\U{201A}', '\U{00F2}', '\U{00D6}', ' ', ' ']
    ensures CombineLine("abc", [Glyphs[1], ' ', ' ']) == [Glyphs[1], 'b', 'c']
  {
    var cells := [AsWrittenGlyphs[1], " ", " "];
    assert cells[1..] == [" ", " "] && cells[1..][1..] == [" "] && cells[1..][1..][1..] == [];
    assert JoinCells([" "]) == " ";
    assert JoinCells([" ", " "]) == "  ";
    var row := JoinCells(cells);
    assert row == ['\U{201A}', '\U{00F2}', '\U{00D6}', ' ', ' '];
    var r := CombineLine("abc", row);
    assert r[0] == MergedRune("abc", row, 0);
    assert r[1] == MergedRune("abc", row, 1);
    assert r[2] == MergedRune("abc", row, 2);
    assert r[3] == MergedRune("abc", row, 3);
    assert r[4] == MergedRune("abc", row, 4);
    var good := CombineLine("abc", [Glyphs[1], ' ', ' ']);
    assert good[0] == MergedRune("abc", [Glyphs[1], ' ', ' '], 0);
    assert good[1] == MergedRune("abc", [Glyphs[1], ' ', ' '], 1);
    assert good[2] == MergedRune("abc", [Glyphs[1], ' ', ' '], 2);
  }
}

=== FILE: content.dfy ===
/** Values the section renderers derive from the session and the content
    store: skill bars, experience meta lines and entries, and the rotating
    tech fact. Styling is the identity here. */
module Content {
  import opened Wrappers
  import opened GoMath
  import opened Text
  import opened Data

  const BarWidth: int := 30
  /** Go's fmt widths in the skill line: `%-15s` for the name, `%3d` for the percentage. */
  const NameWidth: nat := 15
  const PercentWidth: nat := 3
  const FullCell: char := '\U{2588}'
  const EmptyCell: char := '\U{2591}'
  const Bullet: string := " \U{2022} "
  const CurrentSuffix: string := " \U{2022} \U{1F7E2} Current"
  const ExperienceTitle: string := "\U{1F4BC} Professional Experience"
  const NoExperienceText: string := "No experience data available. Please check the data file."
  const FactPrefix: string := "\U{1F4A1} "
  /** The tech fact shown in About changes every this many ticks. */
  const TicksPerFact: int := 50

  // ---- Skill bars --------------------------------------------------------

  /** The percentage the bar is drawn with: pulsed and clamped to [0, 100]
      when effects are on, the raw value otherwise. The pulse is
      `int(3 * sin(...))`, taken here as any integer. */
  function AnimatedPercentage(p: int, effects: bool, pulse: int): (a: int)
    ensures effects ==> 0 <= a <= 100
    ensures effects && 0 <= p + pulse <= 100 ==> a == p + pulse
    ensures effects && p + pulse > 100 ==> a == 100
    ensures effects && p + pulse < 0 ==> a == 0
    ensures !effects ==> a == p
  {
    if effects then Max(Min(p + pulse, 100), 0) else p
  }

  /** `int(30.0 * a / 100.0)`: the number of filled cells, truncated toward zero. */
  function Filled(a: int): int
  {
    TruncDiv(BarWidth * a, 100)
  }

  /** For a percentage in [0, 100] the fill is the floor of 30·a/100, in [0, 30]. */
  lemma FilledInRange(a: int)
    requires 0 <= a <= 100
    ensures Filled(a) == (BarWidth * a) / 100
    ensures 0 <= Filled(a) <= BarWidth
  {
  }

  /** A larger percentage never fills fewer cells. */
  lemma FilledMonotone(a: int, b: int)
    requires a <= b
    ensures Filled(a) <= Filled(b)
  {
  }

  /** The 30-cell bar, or nothing where `strings.Repeat` would panic on a
      negative count (a fill below 0 or above 30). */
  function SkillBar(p: int, effects: bool, pulse: int): (r: Option<string>)
    ensures var f := Filled(AnimatedPercentage(p, effects, pulse));
            r.Some? <==> 0 <= f <= BarWidth
    ensures var f := Filled(AnimatedPercentage(p, effects, pulse));
            r.Some? ==> |r.value| == BarWidth
                        && forall i :: 0 <= i < BarWidth ==> r.value[i] == (if i < f then FullCell else EmptyCell)
  {
    var filled := Filled(AnimatedPercentage(p, effects, pulse));
    if filled < 0 || BarWidth - filled < 0 then None
    else Some(Repeat(FullCell, filled) + Repeat(EmptyCell, BarWidth - filled))
  }

  /** With effects on the bar is always drawn. */
  lemma BarDrawnWithEffects(p: int, pulse: int)
    ensures SkillBar(p, true, pulse).Some?
  {
    FilledInRange(AnimatedPercentage(p, true, pulse));
  }

  /** With effects off the raw percentage decides: the bar is drawn exactly
      for percentages in [-3, 103], because the fill is truncated toward zero. */
  lemma BarWithoutEffects(p: int, pulse: int)
    ensures SkillBar(p, false, pulse).Some? <==> -3 <= p <= 103
  {
  }

  /** `renderSkillBar`: `"  %-15s %s %3d%% (%s)"` of the name, the bar, the
      raw percentage and the experience text. */
  function SkillLine(skill: Skill, effects: bool, pulse: int): (r: Option<string>)
    ensures r.Some? <==> SkillBar(skill.percentage, effects, pulse).Some?
  {
    match SkillBar(skill.percentage, effects, pulse)
    case None => None
    case Some(bar) =>
      Some(LineOf(PadRight(skill.name, NameWidth), bar, PadLeft(Decimal(skill.percentage), PercentWidth), skill.experience))
  }

  /** The layout `"  %s %s %s%% (%s)"` of already padded fields. */
  function LineOf(name: string, bar: string, field: string, experience: string): string {
    "  " + name + " " + bar + " " + field + "% (" + experience + ")"
  }

  /** The middle part of a three-part text sits right after the first part. */
  lemma SliceOf(a: string, b: string, c: string)
    ensures (a + b + c)[|a|..|a| + |b|] == b
  {
  }

  /** Each field of the layout sits at its own offset; the name and the
      digits sit inside their padding. */
  lemma LineOfFields(raw: string, name: string, bar: string, digits: string, field: string, experience: string, b: nat, n: nat)
    requires |raw| <= |name| && name[..|raw|] == raw
    requires |digits| <= |field| && field[|field| - |digits|..] == digits
    requires b == 3 + |name| && n == b + |bar| + 1
    ensures var l := LineOf(name, bar, field, experience);
            && |l| == n + |field| + 3 + |experience| + 1
            && l[2..2 + |raw|] == raw
            && l[b..b + |bar|] == bar
            && l[n + |field| - |digits|..n + |field|] == digits
            && l[n + |field| + 3..|l| - 1] == experience
  {
    var l := LineOf(name, bar, field, experience);
    var pad := name[|raw|..];
    var lead := field[..|field| - |digits|];
    assert name == raw + pad;
    assert field == lead + digits;
    var tail := "% (" + experience + ")";
    assert l == "  " + raw + (pad + " " + bar + " " + field + tail);
    SliceOf("  ", raw, pad + " " + bar + " " + field + tail);
    assert l == ("  " + name + " ") + bar + (" " + field + tail);
    SliceOf("  " + name + " ", bar, " " + field + tail);
    assert l == ("  " + name + " " + bar + " " + lead) + digits + tail;
    SliceOf("  " + name + " " + bar + " " + lead, digits, tail);
    assert l == ("  " + name + " " + bar + " " + field + "% (") + experience + ")";
    SliceOf("  " + name + " " + bar + " " + field + "% (", experience, ")");
  }

  /** Where the bar starts in a skill line. */
  function BarStart(skill: Skill): nat {
    3 + |PadRight(skill.name, NameWidth)|
  }

  /** Where the percentage field starts in a skill line: after the bar and
      one space. */
  function NumberStart(skill: Skill): nat {
    BarStart(skill) + BarWidth + 1
  }

  /** The fields of a skill line in order: the name left-justified to 15
      runes, the bar, the percentage field, then the experience text in
      parentheses. */
  lemma SkillLineFields(skill: Skill, effects: bool, pulse: int)
    requires SkillLine(skill, effects, pulse).Some?
    ensures var l := SkillLine(skill, effects, pulse).value;
            var field := PadLeft(Decimal(skill.percentage), PercentWidth);
            && NumberStart(skill) + |field| + 3 + |skill.experience| + 1 == |l|
            && l[2..2 + |skill.name|] == skill.name
            && l[BarStart(skill)..BarStart(skill) + BarWidth] == SkillBar(skill.percentage, effects, pulse).value
            && l[NumberStart(skill) + |field| + 3..|l| - 1] == skill.experience
  {
    var name, bar := PadRight(skill.name, NameWidth), SkillBar(skill.percentage, effects, pulse).value;
    var digits := Decimal(skill.percentage);
    SkillLineLayout(skill, effects, pulse);
    LineOfFields(skill.name, name, bar, digits, PadLeft(digits, PercentWidth), skill.experience,
                 BarStart(skill), NumberStart(skill));
  }

  /** The percentage field of a skill line ends with the raw percentage's
      decimal digits (right-justified to 3 runes); for a non-negative
      percentage they denote the percentage itself. */
  lemma SkillLineNumber(skill: Skill, effects: bool, pulse: int)
    requires SkillLine(skill, effects, pulse).Some?
    ensures var l := SkillLine(skill, effects, pulse).value;
            var digits := Decimal(skill.percentage);
            var end := NumberStart(skill) + |PadLeft(digits, PercentWidth)|;
            && |digits| <= end
            && OccursAt(digits, l, end - |digits|)
  {
    SkillLineLayout(skill, effects, pulse);
    NumberOfLine(SkillLine(skill, effects, pulse).value, PadRight(skill.name, NameWidth),
                 SkillBar(skill.percentage, effects, pulse).value, Decimal(skill.percentage),
                 PadLeft(Decimal(skill.percentage), PercentWidth), skill.experience, NumberStart(skill));
  }

  /** The digits right-justified in the field end where the field ends. */
  lemma NumberOfLine(l: string, name: string, bar: string, digits: string, field: string, experience: string, n: nat)
    requires l == LineOf(name, bar, field, experience)
    requires |digits| <= |field| && field[|field| - |digits|..] == digits
    requires n == 3 + |name| + |bar| + 1
    ensures |digits| <= n + |field|
    ensures OccursAt(digits, l, n + |field| - |digits|)
  {
    LineOfFields([], name, bar, digits, field, experience, 3 + |name|, n);
  }

  /** For a non-negative percentage the runes a skill line prints before
      its `%` sign are all digits and denote the percentage itself. */
  lemma SkillLinePercentValue(skill: Skill, effects: bool, pulse: int)
    requires SkillLine(skill, effects, pulse).Some? && skill.percentage >= 0
    ensures var l := SkillLine(skill, effects, pulse).value;
            var digits := Decimal(skill.percentage);
            var end := NumberStart(skill) + |PadLeft(digits, PercentWidth)|;
            && |digits| <= end <= |l|
            && PrintsNumber(l[end - |digits|..end], skill.percentage)
  {
    SkillLineNumber(skill, effects, pulse);
    var l := SkillLine(skill, effects, pulse).value;
    var digits := Decimal(skill.percentage);
    var end := NumberStart(skill) + |PadLeft(digits, PercentWidth)|;
    DigitsDenote(l[end - |digits|..end], skill.percentage);
  }

  /** A drawn skill line is the layout of its padded fields. */
  lemma SkillLineLayout(skill: Skill, effects: bool, pulse: int)
    requires SkillLine(skill, effects, pulse).Some?
    ensures |SkillBar(skill.percentage, effects, pulse).value| == BarWidth
    ensures SkillLine(skill, effects, pulse).value
         == LineOf(PadRight(skill.name, NameWidth), SkillBar(skill.percentage, effects, pulse).value,
                   PadLeft(Decimal(skill.percentage), PercentWidth), skill.experience)
  {
  }

  /** Two layouts with bars of equal length agree everywhere outside the bar. */
  lemma LineOfOutsideBar(name: string, b1: string, b2: string, field: string, experience: string)
    requires |b1| == |b2|
    ensures var l1, l2 := LineOf(name, b1, field, experience), LineOf(name, b2, field, experience);
            |l1| == |l2| && 3 + |name| + |b1| <= |l1|
            && forall i :: 0 <= i < |l1| && !(3 + |name| <= i < 3 + |name| + |b1|) ==> l1[i] == l2[i]
  {
    var front := "  " + name + " ";
    var tail := " " + field + "% (" + experience + ")";
    assert LineOf(name, b1, field, experience) == front + b1 + tail;
    assert LineOf(name, b2, field, experience) == front + b2 + tail;
  }

  /** The printed percentage is the raw one: two renderings of a skill with
      any effects flags and pulses agree on every rune outside the bar. */
  lemma SkillLineShowsRawPercentage(skill: Skill, e1: bool, pulse1: int, e2: bool, pulse2: int)
    requires SkillLine(skill, e1, pulse1).Some? && SkillLine(skill, e2, pulse2).Some?
    ensures var l1, l2 := SkillLine(skill, e1, pulse1).value, SkillLine(skill, e2, pulse2).value;
            |l1| == |l2| && BarStart(skill) + BarWidth <= |l1|
            && forall i :: 0 <= i < |l1| && !(BarStart(skill) <= i < BarStart(skill) + BarWidth) ==> l1[i] == l2[i]
  {
    SkillLineLayout(skill, e1, pulse1);
    SkillLineLayout(skill, e2, pulse2);
    LineOfOutsideBar(PadRight(skill.name, NameWidth), SkillBar(skill.percentage, e1, pulse1).value,
                     SkillBar(skill.percentage, e2, pulse2).value,
                     PadLeft(Decimal(skill.percentage), PercentWidth), skill.experience);
  }

  // ---- Experience entries ---------------------------------------------------

  /** The meta line of an entry: period and location, plus the "Current"
      marker for the entry flagged current. */
  function MetaLine(e: Experience): (r: string)
    ensures OccursAt(e.period, r, 2)
    ensures OccursAt(e.location, r, 2 + |e.period| + |Bullet| + 2)
    ensures e.current ==> |r| >= |CurrentSuffix| && r[|r| - |CurrentSuffix|..] == CurrentSuffix
    ensures !e.current ==> |r| == 2 + |e.period| + |Bullet| + 2 + |e.location|
  {
    "\U{1F4C5} " + e.period + Bullet + "\U{1F4CD} " + e.location + (if e.current then CurrentSuffix else "")
  }

  /** The marker is appended exactly for current entries: a current entry's
      meta line is the non-current one's plus the marker. */
  lemma MetaLineMarksCurrent(e: Experience)
    ensures MetaLine(e.(current := true)) == MetaLine(e.(current := false)) + CurrentSuffix
    ensures |MetaLine(e)| == |MetaLine(e.(current := false))| + (if e.current then |CurrentSuffix| else 0)
  {
  }

  function DetailLines(details: seq<string>): string {
    if |details| == 0 then "" else DetailLine(details[0]) + DetailLines(details[1..])
  }

  function TechLine(technologies: seq<string>): string {
    if |technologies| > 0 then "  Tech: " + Join(technologies, ", ") + "\n" else ""
  }

  /** An entry: the "title @ company" header line, the meta line, a blank
      line, one bullet line per detail, the tech line, and a closing newline. */
  function ExperienceBlock(e: Experience): (r: string)
    ensures OccursAt(e.title + " @ " + e.company + "\n", r, 0)
    ensures OccursAt(MetaLine(e), r, |e.title| + |e.company| + 4)
    ensures |r| >= 1 && r[|r| - 1] == '\n'
  {
    e.title + " @ " + e.company + "\n" + MetaLine(e) + "\n\n" + DetailLines(e.details) + TechLine(e.technologies) + "\n"
  }

  /** The entries in order, separated by an extra newline after the first. */
  function ExperienceBlocks(exps: seq<Experience>, first: bool): string {
    if |exps| == 0 then ""
    else (if first then "" else "\n") + ExperienceBlock(exps[0]) + ExperienceBlocks(exps[1..], false)
  }

  /** `x` occurs in `s` starting at position `k`. */
  predicate OccursAt(x: string, s: string, k: int) {
    0 <= k && k + |x| <= |s| && s[k..k + |x|] == x
  }

  ghost predicate IsInfix(x: string, s: string) {
    exists k :: OccursAt(x, s, k)
  }

  lemma InfixLeft(x: string, a: string, b: string)
    requires IsInfix(x, a)
    ensures IsInfix(x, a + b)
  {
    var k :| OccursAt(x, a, k);
    assert (a + b)[k..k + |x|] == x;
    assert OccursAt(x, a + b, k);
  }

  lemma InfixRight(x: string, a: string, b: string)
    requires IsInfix(x, b)
    ensures IsInfix(x, a + b)
  {
    var k :| OccursAt(x, b, k);
    assert (a + b)[|a| + k..|a| + k + |x|] == x;
    assert OccursAt(x, a + b, |a| + k);
  }

  lemma BlockShowsMeta(e: Experience)
    ensures IsInfix(MetaLine(e), ExperienceBlock(e))
  {
    var m := MetaLine(e);
    var front := e.title + " @ " + e.company + "\n";
    assert (front + m)[|front|..|front| + |m|] == m;
    assert OccursAt(m, front + m, |front|);
    var rest := "\n\n" + DetailLines(e.details) + TechLine(e.technologies) + "\n";
    InfixLeft(m, front + m, "\n\n");
    InfixLeft(m, front + m + "\n\n", DetailLines(e.details));
    InfixLeft(m, front + m + "\n\n" + DetailLines(e.details), TechLine(e.technologies));
    InfixLeft(m, front + m + "\n\n" + DetailLines(e.details) + TechLine(e.technologies), "\n");
  }

  lemma {:induction false} BlocksShowMeta(exps: seq<Experience>, first: bool, i: nat)
    requires i < |exps|
    ensures IsInfix(MetaLine(exps[i]), ExperienceBlocks(exps, first))
    decreases i
  {
    var sep := if first then "" else "\n";
    if i == 0 {
      BlockShowsMeta(exps[0]);
      InfixRight(MetaLine(exps[0]), sep, ExperienceBlock(exps[0]));
      InfixLeft(MetaLine(exps[0]), sep + ExperienceBlock(exps[0]), ExperienceBlocks(exps[1..], false));
    } else {
      BlocksShowMeta(exps[1..], false, i - 1);
      InfixRight(MetaLine(exps[i]), sep + ExperienceBlock(exps[0]), ExperienceBlocks(exps[1..], false));
    }
  }

  /** One bullet line of an entry. */
  function DetailLine(detail: string): string {
    "  \U{2022} " + detail + "\n"
  }

  /** Every detail gets its own bullet line. */
  lemma {:induction false} DetailLinesShow(details: seq<string>, j: nat)
    requires j < |details|
    ensures IsInfix(DetailLine(details[j]), DetailLines(details))
    decreases j
  {
    var head := DetailLine(details[0]);
    assert DetailLines(details) == head + DetailLines(details[1..]);
    if j == 0 {
      assert DetailLines(details)[0..|head|] == head;
      assert OccursAt(head, DetailLines(details), 0);
    } else {
      DetailLinesShow(details[1..], j - 1);
      InfixRight(DetailLine(details[j]), head, DetailLines(details[1..]));
    }
  }

  /** Every detail of an entry appears in its block as a bullet line. */
  lemma BlockShowsDetail(e: Experience, j: nat)
    requires j < |e.details|
    ensures IsInfix(DetailLine(e.details[j]), ExperienceBlock(e))
  {
    var x := DetailLine(e.details[j]);
    var front := e.title + " @ " + e.company + "\n" + MetaLine(e) + "\n\n";
    DetailLinesShow(e.details, j);
    InfixRight(x, front, DetailLines(e.details));
    InfixLeft(x, front + DetailLines(e.details), TechLine(e.technologies));
    InfixLeft(x, front + DetailLines(e.details) + TechLine(e.technologies), "\n");
  }

  /** `renderExperience`: the title, then the fallback message when there
      are no entries (or nothing is loaded), otherwise every entry, each
      with its meta line. */
  function RenderExperience(dl: DataLoader): (r: string)
    ensures |GetExperiences(dl)| == 0 ==> r == ExperienceTitle + "\n\n" + NoExperienceText
    ensures forall i :: 0 <= i < |GetExperiences(dl)| ==> IsInfix(MetaLine(GetExperiences(dl)[i]), r)
  {
    var exps := GetExperiences(dl);
    if |exps| == 0 then ExperienceTitle + "\n\n" + NoExperienceText
    else
      var blocks := ExperienceBlocks(exps, true);
      assert forall i :: 0 <= i < |exps| ==> IsInfix(MetaLine(exps[i]), ExperienceTitle + "\n\n" + blocks) by {
        forall i | 0 <= i < |exps|
          ensures IsInfix(MetaLine(exps[i]), ExperienceTitle + "\n\n" + blocks)
        {
          BlocksShowMeta(exps, true, i);
          InfixRight(MetaLine(exps[i]), ExperienceTitle + "\n\n", blocks);
        }
      }
      ExperienceTitle + "\n\n" + blocks
  }

  // ---- The rotating tech fact ---------------------------------------------

  /** The fact box of About: the fact at index `tick / 50`. */
  function AboutFact(dl: DataLoader, tick: nat): (r: string)
    ensures |GetTechFacts(dl)| == 0 ==> r == FactPrefix + FallbackFact
    ensures |GetTechFacts(dl)| > 0 ==>
              r == FactPrefix + GetTechFacts(dl)[(tick / TicksPerFact) % |GetTechFacts(dl)|]
  {
    FactPrefix + GetRandomTechFact(dl, tick / TicksPerFact)
  }

  /** The fact stays the same for 50 ticks at a time. */
  lemma FactSteadyFor50Ticks(dl: DataLoader, tick: nat)
    ensures AboutFact(dl, tick) == AboutFact(dl, TicksPerFact * (tick / TicksPerFact))
  {
  }

  /** After 50 ticks per fact the rotation starts over. */
  lemma FactRotationPeriod(dl: DataLoader, tick: nat)
    ensures AboutFact(dl, tick + TicksPerFact * |GetTechFacts(dl)|) == AboutFact(dl, tick)
  {
    var n := |GetTechFacts(dl)|;
    assert (tick + TicksPerFact * n) / TicksPerFact == tick / TicksPerFact + n;
    TechFactPeriodic(dl, tick / TicksPerFact);
  }
}

=== FILE: data_loader.dfy ===
/** The read-only content store: the loaded portfolio record, its
    nil-guarded getters, the validator and the rotating tech fact.
    Go's nil pointers are `None`; Go's nil slices and maps are empty,
    which is all their callers can observe through `len` and `range`. */
module Data {
  import opened Wrappers
  import GoMath

  datatype AboutInfo = AboutInfo(intro: string, whatIDo: string, background: seq<string>, philosophy: string)

  datatype ContactInfo = ContactInfo(
    email: string, gitHub: string, linkedIn: string, portfolio: string,
    preferredContact: string, responseTime: string,
    availableFor: seq<string>, specializations: seq<string>)

  datatype PersonalInfo = PersonalInfo(
    name: string, nickname: string, title: string, location: string, timezone: string,
    about: AboutInfo, contact: ContactInfo)

  datatype Experience = Experience(
    title: string, company: string, period: string, location: string, kind: string,
    current: bool, details: seq<string>, technologies: seq<string>)

  datatype Skill = Skill(name: string, percentage: int, experience: string)

  datatype AsciiArt = AsciiArt(logo: string, contact: string)

  datatype PortfolioData = PortfolioData(
    personal: PersonalInfo,
    experiences: seq<Experience>,
    skills: map<string, seq<Skill>>,
    techFacts: seq<string>,
    asciiArt: AsciiArt)

  /** The loader: `data` is absent until a load succeeded. */
  datatype DataLoader = DataLoader(data: Option<PortfolioData>, dataPath: string)

  /** The validator's failures, in the order it checks them. */
  datatype ValidationError = NoData | NameRequired | EmailRequired | ExperienceRequired | SkillCategoryRequired

  const FallbackFact: string := "Loading awesome tech facts..."

  /** The text of each validation failure; every failure has its own. */
  function Message(e: ValidationError): (r: string)
    ensures |r| > 0
  {
    match e
    case NoData => "no data loaded"
    case NameRequired => "personal name is required"
    case EmailRequired => "contact email is required"
    case ExperienceRequired => "at least one experience is required"
    case SkillCategoryRequired => "at least one skill category is required"
  }

  predicate IsLoaded(dl: DataLoader) {
    dl.data.Some?
  }

  /** Distinct failures read differently, so a caller can tell them apart
      from the error text alone. */
  lemma MessageInjective(a: ValidationError, b: ValidationError)
    requires Message(a) == Message(b)
    ensures a == b
  {
  }

  /** Every getter that hands out a part of the data agrees with the load
      state, and so does the validator's first check. */
  lemma IsLoadedAgreement(dl: DataLoader)
    ensures IsLoaded(dl) <==> GetData(dl).Some?
    ensures IsLoaded(dl) <==> GetPersonalInfo(dl).Some?
    ensures IsLoaded(dl) <==> GetAsciiArt(dl).Some?
    ensures IsLoaded(dl) <==> GetContact(dl).Some?
    ensures !IsLoaded(dl) <==> ValidateData(dl) == Some(NoData)
  {
  }

  function GetData(dl: DataLoader): (r: Option<PortfolioData>)
    ensures r.Some? <==> IsLoaded(dl)
  {
    dl.data
  }

  function GetPersonalInfo(dl: DataLoader): (r: Option<PersonalInfo>)
    ensures r.Some? <==> IsLoaded(dl)
    ensures r.Some? ==> r.value == dl.data.value.personal
  {
    if dl.data.None? then None else Some(dl.data.value.personal)
  }

  function GetExperiences(dl: DataLoader): (r: seq<Experience>)
    ensures !IsLoaded(dl) ==> r == []
    ensures IsLoaded(dl) ==> r == dl.data.value.experiences
  {
    if dl.data.None? then [] else dl.data.value.experiences
  }

  /** Index of the first entry flagged current, scanning in list order. */
  function FirstCurrent(exps: seq<Experience>): (r: Option<nat>)
    ensures r.Some? ==> r.value < |exps| && exps[r.value].current
    ensures r.Some? ==> forall j :: 0 <= j < r.value ==> !exps[j].current
    ensures r.None? ==> forall j :: 0 <= j < |exps| ==> !exps[j].current
  {
    if |exps| == 0 then None
    else if exps[0].current then Some(0)
    else
      match FirstCurrent(exps[1..])
      case None => None
      case Some(i) => Some(i + 1)
  }

  /** The first experience flagged current, or nothing when none is or
      nothing is loaded. */
  function GetCurrentExperience(dl: DataLoader): (r: Option<Experience>)
    ensures r.None? <==> !IsLoaded(dl) || forall j :: 0 <= j < |dl.data.value.experiences| ==> !dl.data.value.experiences[j].current
    ensures r.Some? ==> r.value.current
    ensures r.Some? ==> exists i :: (0 <= i < |GetExperiences(dl)| && GetExperiences(dl)[i] == r.value
                                     && forall j :: 0 <= j < i ==> !GetExperiences(dl)[j].current)
  {
    if dl.data.None? then None
    else
      match FirstCurrent(dl.data.value.experiences)
      case None => None
      case Some(i) =>
        var e := dl.data.value.experiences[i];
        assert GetExperiences(dl)[i] == e;
        Some(e)
  }

  function GetSkills(dl: DataLoader): (r: map<string, seq<Skill>>)
    ensures !IsLoaded(dl) ==> r == map[]
    ensures IsLoaded(dl) ==> r == dl.data.value.skills
  {
    if dl.data.None? then map[] else dl.data.value.skills
  }

  /** The skills of one category; empty (nil) for an absent category or
      when nothing is loaded. */
  function GetSkillsByCategory(dl: DataLoader, category: string): (r: seq<Skill>)
    ensures IsLoaded(dl) && category in dl.data.value.skills ==> r == dl.data.value.skills[category]
    ensures !IsLoaded(dl) || category !in dl.data.value.skills ==> r == []
  {
    if dl.data.None? then []
    else if category !in dl.data.value.skills then []
    else dl.data.value.skills[category]
  }

  function GetTechFacts(dl: DataLoader): (r: seq<string>)
    ensures !IsLoaded(dl) ==> r == []
    ensures IsLoaded(dl) ==> r == dl.data.value.techFacts
  {
    if dl.data.None? then [] else dl.data.value.techFacts
  }

  /** The fact at `index` modulo the number of facts, or the fallback text
      when there are none. Go's `%` keeps the sign of a negative index,
      which would then be out of range, so the index must be non-negative. */
  function GetRandomTechFact(dl: DataLoader, index: int): (r: string)
    requires index >= 0
    ensures |GetTechFacts(dl)| == 0 ==> r == FallbackFact
    ensures |GetTechFacts(dl)| > 0 ==> r in GetTechFacts(dl)
    ensures |GetTechFacts(dl)| > 0 ==> r == GetTechFacts(dl)[index % |GetTechFacts(dl)|]
  {
    var facts := GetTechFacts(dl);
    if |facts| == 0 then FallbackFact
    else facts[GoMath.TruncRem(index, |facts|)]
  }

  function GetAsciiArt(dl: DataLoader): (r: Option<AsciiArt>)
    ensures r.Some? <==> IsLoaded(dl)
    ensures r.Some? ==> r.value == dl.data.value.asciiArt
  {
    if dl.data.None? then None else Some(dl.data.value.asciiArt)
  }

  function GetContact(dl: DataLoader): (r: Option<ContactInfo>)
    ensures r.Some? <==> IsLoaded(dl)
    ensures r.Some? ==> r.value == GetPersonalInfo(dl).value.contact
  {
    if dl.data.None? then None else Some(dl.data.value.personal.contact)
  }

  /** The first failing check, in the validator's order; nothing when all pass. */
  function ValidateData(dl: DataLoader): (r: Option<ValidationError>)
    ensures r.None? <==> IsLoaded(dl) && dl.data.value.personal.name != ""
                         && dl.data.value.personal.contact.email != ""
                         && |dl.data.value.experiences| > 0 && |dl.data.value.skills| > 0
    ensures r == Some(NoData) <==> !IsLoaded(dl)
    ensures r == Some(NameRequired) <==> IsLoaded(dl) && dl.data.value.personal.name == ""
    ensures r == Some(EmailRequired) <==>
              IsLoaded(dl) && dl.data.value.personal.name != "" && dl.data.value.personal.contact.email == ""
    ensures r == Some(ExperienceRequired) <==>
              IsLoaded(dl) && dl.data.value.personal.name != "" && dl.data.value.personal.contact.email != ""
              && |dl.data.value.experiences| == 0
  {
    if dl.data.None? then Some(NoData)
    else
      var d := dl.data.value;
      if d.personal.name == "" then Some(NameRequired)
      else if d.personal.contact.email == "" then Some(EmailRequired)
      else if |d.experiences| == 0 then Some(ExperienceRequired)
      else if |d.skills| == 0 then Some(SkillCategoryRequired)
      else None
  }

  /** Every getter answers nil (or empty) exactly when nothing is loaded. */
  lemma UnloadedGettersAreNil(dl: DataLoader, category: string, index: nat)
    requires !IsLoaded(dl)
    ensures GetData(dl).None? && GetPersonalInfo(dl).None? && GetAsciiArt(dl).None?
    ensures GetContact(dl).None? && GetCurrentExperience(dl).None?
    ensures GetExperiences(dl) == [] && GetSkills(dl) == map[] && GetTechFacts(dl) == []
    ensures GetSkillsByCategory(dl, category) == []
    ensures GetRandomTechFact(dl, index) == FallbackFact
  {
  }

  /** The fact rotation repeats with period equal to the number of facts. */
  lemma TechFactPeriodic(dl: DataLoader, index: nat)
    ensures GetRandomTechFact(dl, index + |GetTechFacts(dl)|) == GetRandomTechFact(dl, index)
  {
    var n := |GetTechFacts(dl)|;
    if n > 0 {
      ModShift(index, n);
    }
  }

  lemma ModShift(a: nat, n: int)
    requires n > 0
    ensures (a + n) % n == a % n
  {
    var q, r := a / n, a % n;
    assert a + n == (q + 1) * n + r;
    ModUnique(a + n, n, q + 1, r);
  }

  /** Euclidean remainders are unique. */
  lemma ModUnique(a: int, n: int, q: int, r: int)
    requires n > 0 && 0 <= r < n && a == q * n + r
    ensures a % n == r
  {
    var q', r' := a / n, a % n;
    assert a == q' * n + r';
    MulDistance(q, q', n);
    assert (q - q') * n == r' - r;
    if q != q' {
      MulAtLeast(q - q', n);
    }
  }

  lemma MulDistance(x: int, y: int, n: int)
    ensures (x - y) * n == x * n - y * n
  {
  }

  lemma MulAtLeast(d: int, n: int)
    requires d != 0 && n > 0
    ensures d * n >= n || d * n <= -n
  {
    if d > 0 {
      assert d * n == (d - 1) * n + n;
      assert (d - 1) * n >= 0;
    } else {
      assert d * n == -((-d - 1) * n) - n;
      assert (-d - 1) * n >= 0;
    }
  }
}

=== FILE: gomath.dfy ===
/** Go's integer operators where they differ from Dafny's Euclidean ones. */
module GoMath {

  function Max(a: int, b: int): int { if a >= b then a else b }

  function Min(a: int, b: int): int { if a <= b then a else b }

  function Abs(a: int): nat { if a >= 0 then a else -a }

  /** Go's `a / b` for a positive divisor (and `int(x)` of the exact quotient):
      the quotient is truncated toward zero, not floored. */
  function TruncDiv(a: int, b: int): (q: int)
    requires b > 0
    ensures Abs(q) == Abs(a) / b
    ensures a >= 0 ==> q >= 0
    ensures a <= 0 ==> q <= 0
  {
    if a >= 0 then a / b else -((-a) / b)
  }

  /** Go's `a % b` for a positive divisor: the remainder keeps the sign of `a`. */
  function TruncRem(a: int, b: int): (r: int)
    requires b > 0
    ensures Abs(r) == Abs(a) % b
    ensures a >= 0 ==> r >= 0
    ensures a <= 0 ==> r <= 0
  {
    if a >= 0 then a % b else -((-a) % b)
  }

  /** Negative values closer to zero than the divisor truncate to 0, so
      `int(x)` sends every x in (-1, 0) to cell 0, like x in [0, 1). */
  lemma TruncDivNearZero(a: int, b: int)
    requires b > 0 && -b < a < b
    ensures TruncDiv(a, b) == 0
  {
  }

  /** Go's `-1 % n` is -1 for every n >= 2, which is not a valid index. */
  lemma NegativeRemainder(n: int)
    requires n >= 2
    ensures TruncRem(-1, n) == -1
  {
  }
}

=== FILE: keybindings.dfy ===
/** The default key table: which key strings trigger which named binding,
    and the bindings the short help bar advertises. */
module KeyBindings {

  /** The named bindings of the key map, in declaration order. */
  datatype Action = Quit | Help | Next | Prev | Tab | ShiftTab | Up | Down

  /** One binding: the key strings that match it and its help entry. */
  datatype Binding = Binding(keys: seq<string>, helpKey: string, helpDesc: string)

  datatype KeyMap = KeyMap(
    quit: Binding, help: Binding, next: Binding, prev: Binding,
    tab: Binding, shiftTab: Binding, up: Binding, down: Binding)
  {
    /** The binding stored under a name. */
    function Get(a: Action): Binding {
      match a
      case Quit => quit
      case Help => help
      case Next => next
      case Prev => prev
      case Tab => tab
      case ShiftTab => shiftTab
      case Up => up
      case Down => down
    }
  }

  /** `DefaultKeyMap`: every binding has at least one key and a help entry,
      and no two bindings share a help description. */
  function DefaultKeyMap(): (r: KeyMap)
    ensures forall a :: |r.Get(a).keys| >= 1 && r.Get(a).helpKey != "" && r.Get(a).helpDesc != ""
    ensures forall a, b :: a != b ==> r.Get(a).helpDesc != r.Get(b).helpDesc
  {
    KeyMap(
      quit := Binding(["q", "ctrl+c"], "q", "quit"),
      help := Binding(["h", "?"], "h/?", "help"),
      next := Binding(["right", "l"], "→/l", "next"),
      prev := Binding(["left", "h"], "←/h", "prev"),
      tab := Binding(["tab"], "tab", "next section"),
      shiftTab := Binding(["shift+tab"], "shift+tab", "prev section"),
      up := Binding(["up", "k"], "↑/k", "scroll up"),
      down := Binding(["down", "j"], "↓/j", "scroll down"))
  }

  /** `key.Matches`: the key string is one of the binding's keys
      (every default binding is enabled). */
  predicate Matches(key: string, a: Action) {
    key in DefaultKeyMap().Get(a).keys
  }

  /** The default key table read the other way round: the set of bindings
      a key string belongs to. */
  function ActionsOf(key: string): (r: set<Action>)
    ensures forall a :: a in r <==> Matches(key, a)
  {
    if key == "h" then {Help, Prev}
    else if key == "q" || key == "ctrl+c" then {Quit}
    else if key == "?" then {Help}
    else if key == "right" || key == "l" then {Next}
    else if key == "left" then {Prev}
    else if key == "tab" then {Tab}
    else if key == "shift+tab" then {ShiftTab}
    else if key == "up" || key == "k" then {Up}
    else if key == "down" || key == "j" then {Down}
    else {}
  }

  /** The bindings shown in the short help bar, in order. */
  function ShortHelp(k: KeyMap): seq<Binding>
  {
    [k.tab, k.shiftTab, k.help, k.quit]
  }

  /** The bindings shown in the full help view, in groups. */
  function FullHelp(k: KeyMap): seq<seq<Binding>>
  {
    [[k.tab, k.shiftTab, k.next, k.prev], [k.up, k.down], [k.help, k.quit]]
  }

  /** "h" is the only key string shared by two bindings. */
  lemma OnlyHIsShared(key: string)
    ensures |ActionsOf(key)| <= 1 || key == "h"
    ensures ActionsOf("h") == {Help, Prev}
  {
  }

  /** Each binding is matched by exactly the key strings of the table. */
  lemma BindingKeys(key: string)
    ensures Matches(key, Quit) <==> key == "q" || key == "ctrl+c"
    ensures Matches(key, Help) <==> key == "h" || key == "?"
    ensures Matches(key, Next) <==> key == "right" || key == "l"
    ensures Matches(key, Prev) <==> key == "left" || key == "h"
    ensures Matches(key, Tab) <==> key == "tab"
    ensures Matches(key, ShiftTab) <==> key == "shift+tab"
    ensures Matches(key, Up) <==> key == "up" || key == "k"
    ensures Matches(key, Down) <==> key == "down" || key == "j"
  {
  }
}

=== FILE: model.dfy ===
/** The session state machine: the current section with its Help overlay,
    the animation clock, the particle set and the viewport, driven by tick,
    resize and key messages.

    The session holds a read-only content store. The constructor in
    cmd/server/model.go takes only a width and a height and the record
    declares no store, while the section renderers read one and the server
    passes one as a third argument; the store is modelled as part of the
    session. */
module Model {
  import opened GoMath
  import opened KeyBindings
  import opened Data
  import opened Particles
  import opened Compositor
  import opened Text

  datatype Section =
    AboutSection | ExperienceSection | SkillsSection | ProjectsSection | ContactSection | LiveSection | HelpSection

  /** The navigable sections, in tab order. Help is not one of them. */
  const Sections: seq<Section> :=
    [AboutSection, ExperienceSection, SkillsSection, ProjectsSection, ContactSection, LiveSection]

  /** The section's value in the enumeration. */
  function Ord(s: Section): nat {
    match s
    case AboutSection => 0
    case ExperienceSection => 1
    case SkillsSection => 2
    case ProjectsSection => 3
    case ContactSection => 4
    case LiveSection => 5
    case HelpSection => 6
  }

  /** `Section(i)` for a value of the enumeration. */
  function SectionOf(i: nat): (s: Section)
    requires i <= 6
    ensures Ord(s) == i
  {
    if i < |Sections| then Sections[i] else HelpSection
  }

  /** `nextSection`: one step forward around the navigable sections. */
  function NextSection(s: Section): (r: Section)
    ensures r in Sections
  {
    SectionOf((Ord(s) + 1) % |Sections|)
  }

  /** `prevSection`: one step back, from the first to the last. */
  function PrevSection(s: Section): (r: Section)
    ensures r in Sections
  {
    if Ord(s) == 0 then SectionOf(|Sections| - 1) else SectionOf(Ord(s) - 1)
  }

  function NextN(s: Section, n: nat): Section
    decreases n
  {
    if n == 0 then s else NextN(NextSection(s), n - 1)
  }

  /** Stepping forward moves to the following section, the last wrapping
      round to the first; stepping back undoes it, and the other way round. */
  lemma NextPrevInverse(s: Section)
    requires s != HelpSection
    ensures Ord(NextSection(s)) == (Ord(s) + 1) % 6
    ensures Ord(PrevSection(s)) == (Ord(s) + 5) % 6
    ensures PrevSection(NextSection(s)) == s
    ensures NextSection(PrevSection(s)) == s
  {
  }

  /** Six forward steps return to the start, and no fewer do. */
  lemma {:induction false} NextCycle(s: Section)
    requires s != HelpSection
    ensures NextN(s, 6) == s
    ensures forall k :: 0 < k < 6 ==> NextN(s, k) != s
  {
    NextNReturns(s, 6);
    forall k | 0 < k < 6
      ensures NextN(s, k) != s
    {
      NextNReturns(s, k);
    }
  }

  /** Within one round, k steps forward come back exactly when k is 6. */
  lemma NextNReturns(s: Section, k: int)
    requires s != HelpSection && 0 < k <= 6
    ensures NextN(s, k) == s <==> k == 6
  {
    var o := Ord(s);
    NextNOrd(s, k);
    ModSixCycle(o, k);
    SectionOfOrd(NextN(s, k));
    SectionOfOrd(s);
    assert Ord(NextN(s, k)) == o <==> k == 6;
  }

  lemma ModSixCycle(o: int, k: int)
    requires 0 <= o < 6 && 0 < k <= 6
    ensures (o + k) % 6 == o <==> k == 6
  {
  }

  lemma SectionOfOrd(s: Section)
    ensures SectionOf(Ord(s)) == s
  {
  }

  lemma {:induction false} NextNOrd(s: Section, n: nat)
    requires s != HelpSection
    ensures Ord(NextN(s, n)) == (Ord(s) + n) % 6
    decreases n
  {
    if n > 0 {
      NextPrevInverse(s);
      NextNOrd(NextSection(s), n - 1);
      if Ord(s) == 5 {
        AddSixMod(n - 1);
      } else {
        assert Ord(NextSection(s)) == Ord(s) + 1;
      }
    }
  }

  lemma AddSixMod(x: nat)
    ensures (x + 6) % 6 == x % 6
  {
  }

  /** From About, five steps reach Live and a sixth wraps to About. */
  lemma FiveStepsFromAbout()
    ensures NextN(AboutSection, 5) == LiveSection
    ensures NextN(AboutSection, 6) == AboutSection
  {
    NextNOrd(AboutSection, 5);
    SectionOfOrd(NextN(AboutSection, 5));
    NextCycle(AboutSection);
  }

  // ---- The session --------------------------------------------------------

  /** What the viewport's text was rendered from: the section and the clock
      and effects flag at the moment of the refresh. */
  datatype Snapshot = Snapshot(section: Section, tick: int, effects: bool)

  datatype Viewport = Viewport(width: int, height: int, content: Snapshot, yOffset: int)

  datatype Session = Session(
    section: Section,
    viewport: Viewport,
    width: int,
    height: int,
    ready: bool,
    tick: int,
    particles: seq<Particle>,
    effects: bool,
    loader: DataLoader)

  /** The viewport sits inside the frame with a 4-column and 8-row border,
      the clock never runs backwards past zero, and every particle is valid. */
  predicate Inv(s: Session) {
    && s.viewport.width == s.width - 4
    && s.viewport.height == s.height - 8
    && s.tick >= 0
    && forall i :: 0 <= i < |s.particles| ==> ValidParticle(s.particles[i])
  }

  /** `updateContent`: re-render the current section into the viewport and
      scroll to the top. */
  function Refresh(s: Session): (r: Session)
    ensures r.viewport.content.section == s.section && r.viewport.yOffset == 0
    ensures r == s.(viewport := r.viewport)
    ensures r.viewport.width == s.viewport.width && r.viewport.height == s.viewport.height
  {
    s.(viewport := s.viewport.(content := Snapshot(s.section, s.tick, s.effects), yOffset := 0))
  }

  /** `NewPortfolioModel`: About, a viewport inset from the terminal, clock
      at zero, no particles, effects on, not ready until the first resize. */
  function NewSession(width: int, height: int, loader: DataLoader): (s: Session)
    ensures Inv(s)
    ensures s.section == AboutSection && !s.ready && s.tick == 0 && s.particles == [] && s.effects
    ensures s.viewport.content == Snapshot(AboutSection, 0, true) && s.viewport.yOffset == 0
    ensures s.width == width && s.height == height && s.loader == loader
  {
    Refresh(Session(AboutSection, Viewport(width - 4, height - 8, Snapshot(AboutSection, 0, true), 0),
                    width, height, false, 0, [], true, loader))
  }

  // ---- Messages and key dispatch -----------------------------------------------

  datatype Msg = Tick | Resize(w: int, h: int) | Key(key: string)

  /** What the model hands back to the runtime: nothing, quit, re-arm the
      50 ms tick, or whatever the viewport returns for a message it was
      passed. */
  datatype Cmd = NoCmd | QuitCmd | TickAfter50ms | FromViewport(msg: Msg)

  datatype Transition = Transition(session: Session, cmd: Cmd)

  /** The cases of the key switch, in the order they are tried, and
      `Unhandled` for a key that falls through to the viewport. */
  datatype Handler = OnQuit | OnHelp | OnEffects | OnExplode | OnNext | OnPrev | OnTab | OnShiftTab | Unhandled

  const SwitchOrder: seq<Handler> := [OnQuit, OnHelp, OnEffects, OnExplode, OnNext, OnPrev, OnTab, OnShiftTab]

  /** The condition of each case of the switch. */
  predicate Guard(h: Handler, key: string) {
    match h
    case OnQuit => Matches(key, Quit)
    case OnHelp => Matches(key, Help)
    case OnEffects => key == "e"
    case OnExplode => key == "x"
    case OnNext => Matches(key, Next)
    case OnPrev => Matches(key, Prev)
    case OnTab => Matches(key, Tab)
    case OnShiftTab => Matches(key, ShiftTab)
    case Unhandled => false
  }

  /** Where a case stands in the switch. */
  function Position(h: Handler): (i: nat)
    requires h != Unhandled
    ensures i < |SwitchOrder| && SwitchOrder[i] == h
  {
    match h
    case OnQuit => 0
    case OnHelp => 1
    case OnEffects => 2
    case OnExplode => 3
    case OnNext => 4
    case OnPrev => 5
    case OnTab => 6
    case OnShiftTab => 7
  }

  /** The case a key string selects: the first case, in switch order, whose
      condition holds; `Unhandled` when none does. */
  function Resolve(key: string): (h: Handler)
    ensures h != Unhandled ==> Guard(h, key) && forall j :: 0 <= j < Position(h) ==> !Guard(SwitchOrder[j], key)
    ensures h == Unhandled ==> forall j :: 0 <= j < |SwitchOrder| ==> !Guard(SwitchOrder[j], key)
  {
    if Matches(key, Quit) then OnQuit
    else if Matches(key, Help) then OnHelp
    else if key == "e" then OnEffects
    else if key == "x" then OnExplode
    else if Matches(key, Next) then OnNext
    else if Matches(key, Prev) then OnPrev
    else if Matches(key, Tab) then OnTab
    else if Matches(key, ShiftTab) then OnShiftTab
    else Unhandled
  }

  predicate IsNavigation(h: Handler) {
    h == OnNext || h == OnPrev || h == OnTab || h == OnShiftTab
  }

  /** The handler of a key message. */
  function HandleKey(s: Session, key: string, burst: Burst): (t: Transition)
    requires key == "x" ==> ValidBurst(burst)
    ensures t.session.loader == s.loader && t.session.tick == s.tick && t.session.ready == s.ready
    ensures t.session.width == s.width && t.session.height == s.height
    ensures t.cmd == QuitCmd <==> Matches(key, Quit)
    ensures t.cmd.FromViewport? <==> Resolve(key) == Unhandled
    ensures Resolve(key) == Unhandled ==> t.session == s && t.cmd == FromViewport(Key(key))
    ensures t.session.particles != s.particles ==> key == "x"
    ensures t.session.effects != s.effects ==> key == "e"
    ensures t.session.section != s.section ==>
              t.session.viewport.content.section == t.session.section && t.session.viewport.yOffset == 0
  {
    match Resolve(key)
    case OnQuit => Transition(s, QuitCmd)
    case OnHelp =>
      var section := if s.section == HelpSection then AboutSection else HelpSection;
      Transition(Refresh(s.(section := section)), NoCmd)
    case OnEffects => Transition(s.(effects := !s.effects), NoCmd)
    case OnExplode =>
      var cx, cy := TruncDiv(s.viewport.width, 2), TruncDiv(s.viewport.height, 2);
      Transition(s.(particles := Spawn(s.particles, cx, cy, burst)), NoCmd)
    case OnNext =>
      if s.section != HelpSection then Transition(Refresh(s.(section := NextSection(s.section))), NoCmd)
      else Transition(s, NoCmd)
    case OnTab =>
      if s.section != HelpSection then Transition(Refresh(s.(section := NextSection(s.section))), NoCmd)
      else Transition(s, NoCmd)
    case OnPrev =>
      if s.section != HelpSection then Transition(Refresh(s.(section := PrevSection(s.section))), NoCmd)
      else Transition(s, NoCmd)
    case OnShiftTab =>
      if s.section != HelpSection then Transition(Refresh(s.(section := PrevSection(s.section))), NoCmd)
      else Transition(s, NoCmd)
    case Unhandled => Transition(s, FromViewport(Key(key)))
  }

  /** `Update`: one message. The random source is consulted only for the
      explosion key, so only then must `burst` lie in its ranges. */
  function Update(s: Session, msg: Msg, burst: Burst): (t: Transition)
    requires msg == Key("x") ==> ValidBurst(burst)
    ensures s.ready ==> t.session.ready
    ensures t.session.tick == s.tick || (s.effects && t.session.tick == s.tick + 1)
    ensures |t.session.particles| < |s.particles| + MinBurst + BurstSpread
    ensures t.session.loader == s.loader
  {
    match msg
    case Resize(w, h) =>
      var sized := s.(width := w, height := h, viewport := s.viewport.(width := w - 4, height := h - 8));
      Transition(Refresh(sized).(ready := true), FromViewport(msg))
    case Tick =>
      var advanced :=
        if s.effects then s.(tick := s.tick + 1, particles := Advance(s.particles, s.viewport.width, s.viewport.height))
        else s;
      var refreshed := if advanced.section == LiveSection then Refresh(advanced) else advanced;
      Transition(refreshed, TickAfter50ms)
    case Key(key) => HandleKey(s, key, burst)
  }

  // ---- Properties of one message ----------------------------------------------

  /** "h" is bound to both Help and Prev; Help is tried first, so "h"
      always toggles Help. */
  lemma HTogglesHelp()
    ensures Matches("h", Help) && Matches("h", Prev)
    ensures Resolve("h") == OnHelp
  {
  }

  /** Scroll keys are handled by no case and go to the viewport unchanged. */
  lemma ScrollKeysReachViewport(s: Session, key: string, burst: Burst)
    requires Matches(key, Up) || Matches(key, Down)
    ensures Update(s, Key(key), burst) == Transition(s, FromViewport(Key(key)))
  {
    BindingKeys(key);
    assert Resolve(key) == Unhandled;
  }

  /** While Help is shown, every navigation key leaves the whole session
      unchanged, viewport content included. */
  lemma HelpBlocksNavigation(s: Session, key: string, burst: Burst)
    requires s.section == HelpSection && IsNavigation(Resolve(key))
    ensures Update(s, Key(key), burst) == Transition(s, NoCmd)
  {
  }

  /** Outside Help, a navigation key steps the section and re-renders it. */
  lemma NavigationSteps(s: Session, key: string, burst: Burst)
    requires s.section != HelpSection && IsNavigation(Resolve(key))
    ensures var r := Update(s, Key(key), burst).session;
            && r.section == (if Resolve(key) in {OnNext, OnTab} then NextSection(s.section) else PrevSection(s.section))
            && r.section != HelpSection
            && r.viewport.content == Snapshot(r.section, s.tick, s.effects) && r.viewport.yOffset == 0
            && r == Refresh(s.(section := r.section))
  {
  }

  /** The Help key enters Help from any section and leaves it for About,
      so pressing it twice from an ordinary section lands on About rather
      than back where it started. */
  lemma HelpToggle(s: Session, key: string, burst: Burst)
    requires Matches(key, Help)
    ensures var r := Update(s, Key(key), burst).session;
            && r.section == (if s.section == HelpSection then AboutSection else HelpSection)
            && r.viewport.content.section == r.section && r.viewport.yOffset == 0
    ensures s.section != HelpSection ==>
              Update(Update(s, Key(key), burst).session, Key(key), burst).session.section == AboutSection
  {
  }

  /** A tick advances the clock and the particles only when effects are on;
      with effects off the particles are frozen, not decaying. On Live the
      text is re-rendered with the new clock and scrolled to the top; on
      any other section the viewport is left alone. */
  lemma TickAdvancesWithEffects(s: Session, burst: Burst)
    ensures var t := Update(s, Tick, burst);
            && t.cmd == TickAfter50ms
            && t.session.section == s.section && t.session.effects == s.effects
            && (s.effects ==> t.session.tick == s.tick + 1
                              && t.session.particles == Advance(s.particles, s.viewport.width, s.viewport.height))
            && (!s.effects ==> t.session.tick == s.tick && t.session.particles == s.particles)
            && (s.section != LiveSection ==> t.session.viewport == s.viewport)
            && (s.section == LiveSection ==> t.session.viewport.content == Snapshot(LiveSection, t.session.tick, s.effects)
                                             && t.session.viewport.yOffset == 0)
  {
  }

  /** "e" flips the effects flag and changes nothing else, not even the
      particles or the viewport text. */
  lemma EffectsKeyOnlyFlips(s: Session, burst: Burst)
    ensures Update(s, Key("e"), burst) == Transition(s.(effects := !s.effects), NoCmd)
  {
  }

  /** "x" appends a burst of 20 to 29 particles around the viewport's centre
      and keeps the existing ones as a prefix, whether or not effects are on. */
  lemma ExplodeAppendsBurst(s: Session, burst: Burst)
    requires ValidBurst(burst)
    ensures var r := Update(s, Key("x"), burst).session;
            && |s.particles| + MinBurst <= |r.particles| < |s.particles| + MinBurst + BurstSpread
            && r.particles[..|s.particles|] == s.particles
            && r == s.(particles := r.particles)
            && forall i :: |s.particles| <= i < |r.particles| ==>
                 var cx, cy := TruncDiv(s.viewport.width, 2), TruncDiv(s.viewport.height, 2);
                 && cx * Unit - Jitter <= r.particles[i].x < cx * Unit + Jitter
                 && cy * Unit - Jitter <= r.particles[i].y < cy * Unit + Jitter
  {
  }

  /** A resize stores the terminal size, insets the viewport by (4, 8),
      re-renders and marks the session ready. */
  lemma ResizeSetsSize(s: Session, w: int, h: int, burst: Burst)
    ensures var r := Update(s, Resize(w, h), burst).session;
            && r.width == w && r.height == h
            && r.viewport.width == w - 4 && r.viewport.height == h - 8
            && r.ready && r.viewport.content.section == s.section && r.viewport.yOffset == 0
  {
  }

  /** Every message keeps the session invariant. */
  lemma UpdateKeepsInv(s: Session, msg: Msg, burst: Burst)
    requires Inv(s) && (msg == Key("x") ==> ValidBurst(burst))
    ensures Inv(Update(s, msg, burst).session)
  {
    match msg
    case Tick =>
      if s.effects {
        AdvanceKeepsValid(s.particles, s.viewport.width, s.viewport.height);
      }
    case Resize(_, _) =>
    case Key(key) => HandleKeyKeepsInv(s, key, burst);
  }

  lemma HandleKeyKeepsInv(s: Session, key: string, burst: Burst)
    requires Inv(s) && (key == "x" ==> ValidBurst(burst))
    ensures Inv(HandleKey(s, key, burst).session)
  {
  }

  /** The short help bar advertises only keys that really reach the case
      of their binding. */
  lemma ShortHelpKeysReachTheirCase(i: nat, key: string)
    requires i < 4 && key in ShortHelp(DefaultKeyMap())[i].keys
    ensures Resolve(key) == [OnTab, OnShiftTab, OnHelp, OnQuit][i]
  {
  }

  /** The full help advertises "h" for Prev, a key that never reaches Prev. */
  lemma FullHelpAdvertisesShadowedKey()
    ensures "h" in FullHelp(DefaultKeyMap())[0][3].keys
    ensures FullHelp(DefaultKeyMap())[0][3] == DefaultKeyMap().Get(Prev)
    ensures Resolve("h") != OnPrev
  {
  }

  // ---- Runs of messages -------------------------------------------------------

  datatype Event = Event(msg: Msg, burst: Burst)

  predicate ValidEvent(e: Event) {
    e.msg == Key("x") ==> ValidBurst(e.burst)
  }

  /** Feed a run of events until the end or a quit. */
  function Run(s: Session, events: seq<Event>): Session
    requires forall i :: 0 <= i < |events| ==> ValidEvent(events[i])
    decreases |events|
  {
    if |events| == 0 then s
    else
      assert ValidEvent(events[0]);
      var t := Update(s, events[0].msg, events[0].burst);
      if t.cmd == QuitCmd then t.session else Run(t.session, events[1..])
  }

  /** Once ready, a session stays ready, and the invariant holds throughout. */
  lemma {:induction false} RunKeepsReadyAndInv(s: Session, events: seq<Event>)
    requires Inv(s)
    requires forall i :: 0 <= i < |events| ==> ValidEvent(events[i])
    ensures Inv(Run(s, events))
    ensures s.ready ==> Run(s, events).ready
    decreases |events|
  {
    if |events| > 0 {
      assert ValidEvent(events[0]);
      UpdateKeepsInv(s, events[0].msg, events[0].burst);
      var t := Update(s, events[0].msg, events[0].burst);
      if t.cmd != QuitCmd {
        RunKeepsReadyAndInv(t.session, events[1..]);
      }
    }
  }

  const NoBurst: Burst := Burst(0, [])

  /** `n` ticks in a row. */
  function Ticks(s: Session, n: nat): Session
    decreases n
  {
    if n == 0 then s else Ticks(Update(s, Tick, NoBurst).session, n - 1)
  }

  lemma {:induction false} TicksAdvanceParticles(s: Session, n: nat)
    requires s.effects
    ensures Ticks(s, n).particles == AdvanceN(s.particles, n, s.viewport.width, s.viewport.height)
    decreases n
  {
    if n > 0 {
      TicksAdvanceParticles(Update(s, Tick, NoBurst).session, n - 1);
    }
  }

  /** With effects on, every particle is gone after 80 ticks. */
  lemma ParticlesGoneAfter80Ticks(s: Session)
    requires Inv(s) && s.effects
    ensures Ticks(s, 80).particles == []
  {
    TicksAdvanceParticles(s, 80);
    ValidParticlesDieWithin80(s.particles, s.viewport.width, s.viewport.height);
  }

  /** An explosion followed by 100 ticks with effects on leaves no particles. */
  lemma ExplosionFadesWithin100Ticks(s: Session, burst: Burst)
    requires Inv(s) && s.effects && ValidBurst(burst)
    ensures Ticks(Update(s, Key("x"), burst).session, 100).particles == []
  {
    var s' := Update(s, Key("x"), burst).session;
    UpdateKeepsInv(s, Key("x"), burst);
    TicksAdvanceParticles(s', 100);
    var ps, w, h := s'.particles, s'.viewport.width, s'.viewport.height;
    AllDieWithin(ps, 80, w, h);
    AdvanceNEmpty(AdvanceN(ps, 80, w, h), 20, w, h);
    AdvanceNSplit(ps, 80, 20, w, h);
  }

  lemma {:induction false} AdvanceNEmpty(ps: seq<Particle>, n: nat, w: int, h: int)
    requires ps == []
    ensures AdvanceN(ps, n, w, h) == []
    decreases n
  {
    if n > 0 {
      assert Advance(ps, w, h) == [];
      AdvanceNEmpty(Advance(ps, w, h), n - 1, w, h);
    }
  }

  lemma {:induction false} AdvanceNSplit(ps: seq<Particle>, m: nat, n: nat, w: int, h: int)
    ensures AdvanceN(ps, m + n, w, h) == AdvanceN(AdvanceN(ps, m, w, h), n, w, h)
    decreases m
  {
    if m > 0 {
      AdvanceNSplit(Advance(ps, w, h), m - 1, n, w, h);
    }
  }

  // ---- The frame -------------------------------------------------------------

  /** The main content area of `View`: the viewport's visible text, with
      the particle canvas merged over it when there are particles and
      effects are on. */
  function MainContent(s: Session, viewportText: string): (r: string)
    ensures !s.effects || |s.particles| == 0 ==> r == viewportText
  {
    if |s.particles| > 0 && s.effects
    then OverlayParticles(viewportText, s.particles, s.viewport.width, s.viewport.height)
    else viewportText
  }

  /** With effects on and particles alive, a cell inside the viewport shows
      the last particle landing on it, and the viewport's own text (or a
      space past the end of its line) where none lands. */
  lemma MainContentCell(s: Session, viewportText: string, row: nat, col: nat)
    requires Inv(s) && s.effects && |s.particles| > 0
    requires row < s.viewport.height && col < s.viewport.width
    ensures var frame := Split(MainContent(s, viewportText), '\n');
            var baseLine := LineAt(Split(viewportText, '\n'), row);
            && row < |frame| && col < |frame[row]|
            && ((forall k :: 0 <= k < |s.particles| ==> !Lands(s.particles[k], row, col)) ==>
                  frame[row][col] == (if col < |baseLine| then baseLine[col] else ' '))
            && (forall k :: 0 <= k < |s.particles| && Lands(s.particles[k], row, col)
                            && (forall j :: k < j < |s.particles| ==> !Lands(s.particles[j], row, col))
                            ==> frame[row][col] == s.particles[k].glyph)
  {
    OverlayParticlesCell(viewportText, s.particles, s.viewport.width, s.viewport.height, row, col);
  }
}

=== FILE: particles.dfy ===
/** The particle engine: bursts spawned on demand, advanced once per tick
    and drawn onto a character canvas.

    Positions, velocities and remaining life are float64 in the program; here
    they are exact fixed-point values in thousandths (`Unit` is one cell, or
    a full life of 1.0). This is an idealisation of float64 arithmetic. */
module Particles {
  import opened GoMath
  import opened Text

  const Unit: int := 1000
  /** Added to the vertical velocity every tick (0.05). */
  const Gravity: int := 50
  /** Removed from the remaining life every tick (0.015). */
  const LifeDecay: int := 15
  /** How far outside the viewport, in cells, a particle may drift. */
  const Margin: int := 5
  /** A burst has `MinBurst + rand.Intn(BurstSpread)` particles. */
  const MinBurst: int := 20
  const BurstSpread: int := 10
  /** A new particle's life lies in [MinLife, MaxLife). */
  const MinLife: int := 800
  const MaxLife: int := 1200
  /** Start position jitter: the origin plus an offset in [-Jitter, Jitter). */
  const Jitter: int := 2000

  /** The glyph palette of an explosion: one rune per glyph, as the canvas
      of one rune per cell needs. */
  const Glyphs: seq<char> := [
    '*', '\U{2605}', '\U{2726}', '\U{2727}', '\U{25CF}', '\U{25C9}', '\U{25CE}', '\U{25CB}',
    '\U{25EF}', '\U{25E6}', '\U{2022}', '+', '\U{00D7}', '\U{25AA}', '\U{25AB}']

  /** The palette as the program text spells it: the UTF-8 bytes of each
      glyph above read back as Mac Roman, so that all but "*" and "+" are
      two or three runes long. `Compositor.AsWrittenGlyphShiftsOverlay`
      shows what such an entry does to the frame. */
  const AsWrittenGlyphs: seq<string> := [
    "*", "\U{201A}\U{00F2}\U{00D6}", "\U{201A}\U{00FA}\U{00B6}", "\U{201A}\U{00FA}\U{00DF}",
    "\U{201A}\U{00F3}\U{00E8}", "\U{201A}\U{00F3}\U{00E2}", "\U{201A}\U{00F3}\U{00E9}",
    "\U{201A}\U{00F3}\U{00E3}", "\U{201A}\U{00F3}\U{00D8}", "\U{201A}\U{00F3}\U{00B6}",
    "\U{201A}\U{00C4}\U{00A2}", "+", "\U{221A}\U{00F3}", "\U{201A}\U{00F1}\U{2122}",
    "\U{201A}\U{00F1}\U{00B4}"]

  /** Only the two ASCII entries of the palette as written are single runes;
      every other entry spans two or three canvas cells once joined. */
  lemma AsWrittenPaletteWidths()
    ensures |AsWrittenGlyphs| == |Glyphs|
    ensures forall i :: 0 <= i < |AsWrittenGlyphs| ==> (|AsWrittenGlyphs[i]| == 1 <==> i == 0 || i == 11)
    ensures forall i :: 0 <= i < |AsWrittenGlyphs| && |AsWrittenGlyphs[i]| == 1 ==> AsWrittenGlyphs[i] == [Glyphs[i]]
  {
  }

  /** The colour palette of an explosion (Catppuccin Mocha). */
  const Colors: seq<string> := [
    "#f5c2e7", "#cba6f7", "#b4befe", "#89b4fa", "#74c7ec", "#89dceb", "#94e2d5",
    "#a6e3a1", "#f9e2af", "#fab387", "#eba0ac", "#f38ba8", "#f2cdcd", "#f5e0dc"]

  datatype Particle = Particle(x: int, y: int, vx: int, vy: int, life: int, glyph: char, color: string)

  /** What the random source yields for one new particle: the jitter, the
      velocity (speed times the cosine and sine of the angle), the life and
      the palette indices. */
  datatype Draw = Draw(offsetX: int, offsetY: int, vx: int, vy: int, life: int, glyph: nat, color: nat)

  /** What the random source yields for one burst: `rand.Intn(10)` and one
      draw per particle. */
  datatype Burst = Burst(extra: int, draws: seq<Draw>)

  predicate ValidDraw(d: Draw) {
    && -Jitter <= d.offsetX < Jitter
    && -Jitter <= d.offsetY < Jitter
    && MinLife <= d.life < MaxLife
    && d.glyph < |Glyphs|
    && d.color < |Colors|
  }

  /** The ranges the random source guarantees. */
  predicate ValidBurst(b: Burst) {
    && 0 <= b.extra < BurstSpread
    && |b.draws| == MinBurst + b.extra
    && forall i :: 0 <= i < |b.draws| ==> ValidDraw(b.draws[i])
  }

  /** The invariant of every live particle: it was drawn from the palettes
      and its life has not grown since it was spawned. */
  predicate ValidParticle(p: Particle) {
    p.life < MaxLife && p.glyph in Glyphs && p.color in Colors
  }

  function Emit(cx: int, cy: int, d: Draw): Particle
    requires ValidDraw(d)
  {
    Particle(cx * Unit + d.offsetX, cy * Unit + d.offsetY, d.vx, d.vy, d.life, Glyphs[d.glyph], Colors[d.color])
  }

  /** `addExplosion(cx, cy)`: append one burst around cell (cx, cy). */
  function Spawn(ps: seq<Particle>, cx: int, cy: int, b: Burst): (r: seq<Particle>)
    requires ValidBurst(b)
    ensures |ps| + MinBurst <= |r| < |ps| + MinBurst + BurstSpread
    ensures r[..|ps|] == ps
    ensures forall i :: |ps| <= i < |r| ==> ValidParticle(r[i]) && MinLife <= r[i].life
    ensures forall i :: |ps| <= i < |r| ==>
              cx * Unit - Jitter <= r[i].x < cx * Unit + Jitter && cy * Unit - Jitter <= r[i].y < cy * Unit + Jitter
  {
    ps + seq(|b.draws|, i requires 0 <= i < |b.draws| => Emit(cx, cy, b.draws[i]))
  }

  /** One tick of motion for one particle, in the program's order: move by
      the old velocity, then gravity, then drag (x velocity times 0.99,
      truncated toward zero), then decay. */
  function Step(p: Particle): (r: Particle)
    ensures r.glyph == p.glyph && r.color == p.color
    ensures r.life == p.life - LifeDecay
    ensures r.x == p.x + p.vx && r.y == p.y + p.vy
    ensures r.vy == p.vy + Gravity
    ensures Abs(r.vx) <= Abs(p.vx) && (p.vx != 0 ==> Abs(r.vx) < Abs(p.vx))
    ensures (p.vx >= 0 ==> r.vx >= 0) && (p.vx <= 0 ==> r.vx <= 0)
  {
    DragDamps(p.vx);
    p.(x := p.x + p.vx, y := p.y + p.vy, vy := p.vy + Gravity,
       vx := TruncDiv(p.vx * 99, 100), life := p.life - LifeDecay)
  }

  /** The removal test of the engine, on a viewport of w × h cells: life
      left, and x in [-5, w+5), y < h+5. There is no lower bound on y. */
  predicate Alive(p: Particle, w: int, h: int) {
    p.life > 0 && p.x >= -Margin * Unit && p.x < (w + Margin) * Unit && p.y < (h + Margin) * Unit
  }

  /** Air resistance never speeds a particle up or turns it round, and it
      slows every moving particle. */
  lemma DragDamps(v: int)
    ensures Abs(TruncDiv(v * 99, 100)) <= Abs(v)
    ensures v != 0 ==> Abs(TruncDiv(v * 99, 100)) < Abs(v)
  {
    assert Abs(v * 99) == Abs(v) * 99;
  }

  /** Where a kept particle can be: it has life left, lies within `Margin`
      cells of the left, right and bottom edges, and may be any distance
      above the top, since the removal test has no upper bound. */
  lemma AliveRegion(p: Particle, w: int, h: int, d: nat)
    ensures Alive(p, w, h) ==> p.life > 0
    ensures w >= 0 && h >= 0 && Alive(p, w, h) ==> -Margin <= Col(p) < w + Margin && Row(p) < h + Margin
    ensures Alive(p, w, h) ==> Alive(p.(y := p.y - d), w, h)
  {
  }

  /** Every particle advanced by one tick. */
  function StepAll(ps: seq<Particle>): (r: seq<Particle>)
    ensures |r| == |ps|
  {
    if |ps| == 0 then [] else [Step(ps[0])] + StepAll(ps[1..])
  }

  /** Stepping all particles steps each one in place. */
  lemma {:induction false} StepAllPointwise(ps: seq<Particle>)
    ensures forall i :: 0 <= i < |ps| ==> StepAll(ps)[i] == Step(ps[i])
    decreases |ps|
  {
    if |ps| > 0 {
      StepAllPointwise(ps[1..]);
    }
  }

  /** The stable filter that keeps the live particles, in their order. */
  function Survivors(ps: seq<Particle>, w: int, h: int): (r: seq<Particle>)
    ensures |r| <= |ps|
  {
    if |ps| == 0 then []
    else (if Alive(ps[0], w, h) then [ps[0]] else []) + Survivors(ps[1..], w, h)
  }

  /** The survivors are exactly the live particles of the input. */
  lemma {:induction false} SurvivorsMembers(ps: seq<Particle>, w: int, h: int)
    ensures forall q :: q in Survivors(ps, w, h) <==> q in ps && Alive(q, w, h)
    decreases |ps|
  {
    if |ps| > 0 {
      SurvivorsMembers(ps[1..], w, h);
      assert ps == [ps[0]] + ps[1..];
    }
  }

  /** One tick of the engine: the stable filter of the stepped particles. */
  function Advance(ps: seq<Particle>, w: int, h: int): seq<Particle>
  {
    Survivors(StepAll(ps), w, h)
  }

  /** `n` ticks of the engine on a fixed viewport. */
  function AdvanceN(ps: seq<Particle>, n: nat, w: int, h: int): seq<Particle>
    decreases n
  {
    if n == 0 then ps else AdvanceN(Advance(ps, w, h), n - 1, w, h)
  }

  lemma SurvivorsUnfold(ps: seq<Particle>, i: int, w: int, h: int)
    requires 0 <= i < |ps|
    ensures Survivors(StepAll(ps[i..]), w, h)
         == (if Alive(Step(ps[i]), w, h) then [Step(ps[i])] else []) + Survivors(StepAll(ps[i + 1..]), w, h)
  {
    var s := StepAll(ps[i..]);
    assert ps[i..][0] == ps[i];
    assert s[1..] == StepAll(ps[i + 1..]);
  }

  /** The state of the backwards walk before position `i` is visited: the
      untouched prefix `ps[..i+1]`, then the survivors of everything after it. */
  predicate WalkState(ps: seq<Particle>, i: int, r: seq<Particle>, w: int, h: int) {
    -1 <= i < |ps| && r == ps[..i + 1] + Survivors(StepAll(ps[i + 1..]), w, h)
  }

  /** Before the walk nothing has been visited. */
  lemma WalkStart(ps: seq<Particle>, w: int, h: int)
    ensures WalkState(ps, |ps| - 1, ps, w, h)
  {
    assert ps[..|ps|] == ps;
    assert ps[|ps|..] == [];
  }

  /** After the walk everything has been visited and updated. */
  lemma WalkEnd(ps: seq<Particle>, r: seq<Particle>, w: int, h: int)
    requires WalkState(ps, -1, r, w, h)
    ensures r == Advance(ps, w, h)
  {
    assert ps[0..] == ps;
  }

  /** One iteration of the walk moves the state one position to the left,
      whether the visited particle is kept or cut out. */
  lemma WalkStep(ps: seq<Particle>, i: int, r: seq<Particle>, w: int, h: int)
    requires 0 <= i
    requires WalkState(ps, i, r, w, h)
    ensures i < |r| && r[i] == ps[i]
    ensures Alive(Step(ps[i]), w, h) ==> WalkState(ps, i - 1, r[i := Step(ps[i])], w, h)
    ensures !Alive(Step(ps[i]), w, h) ==> WalkState(ps, i - 1, r[..i] + r[i + 1..], w, h)
  {
    var kept := Survivors(StepAll(ps[i + 1..]), w, h);
    var p := Step(ps[i]);
    assert r[i := p] == ps[..i] + ([p] + kept);
    SurvivorsUnfold(ps, i, w, h);
    assert r[..i] == ps[..i];
    assert r[i + 1..] == kept;
    assert ps[..i - 1 + 1] == ps[..i];
    assert ps[i - 1 + 1..] == ps[i..];
  }

  /** `updateParticles`: walk the particles from the back, update each in
      place and cut the dead ones out by shifting the tail down. The result
      is the stable filter of the updated particles. */
  method UpdateParticles(ps: seq<Particle>, w: int, h: int) returns (r: seq<Particle>)
    ensures r == Advance(ps, w, h)
  {
    r := ps;
    var i := |ps| - 1;
    WalkStart(ps, w, h);
    while i >= 0
      invariant WalkState(ps, i, r, w, h)
      decreases i + 1
    {
      WalkStep(ps, i, r, w, h);
      var p := Step(r[i]);
      if Alive(p, w, h) {
        r := r[i := p];
      } else {
        // updated in place, then cut out: the same as cutting out the original
        r := r[..i] + r[i + 1..];
      }
      i := i - 1;
    }
    WalkEnd(ps, r, w, h);
  }

  lemma {:induction false} AllDieWithin(ps: seq<Particle>, k: nat, w: int, h: int)
    requires k >= 1
    requires forall i :: 0 <= i < |ps| ==> ps[i].life <= LifeDecay * k
    ensures AdvanceN(ps, k, w, h) == []
    decreases k
  {
    var next := Advance(ps, w, h);
    var stepped := StepAll(ps);
    SurvivorsMembers(stepped, w, h);
    StepAllPointwise(ps);
    if k == 1 {
      NoneAlive(stepped, w, h);
    } else {
      forall i | 0 <= i < |next|
        ensures next[i].life <= LifeDecay * (k - 1)
      {
        assert next[i] in next;
        var j :| 0 <= j < |stepped| && stepped[j] == next[i];
      }
      AllDieWithin(next, k - 1, w, h);
    }
  }

  lemma NoneAlive(ps: seq<Particle>, w: int, h: int)
    requires forall i :: 0 <= i < |ps| ==> ps[i].life <= 0
    ensures Survivors(ps, w, h) == []
  {
  }

  /** Every live particle is gone within `MaxLife / LifeDecay` = 80 ticks. */
  lemma ValidParticlesDieWithin80(ps: seq<Particle>, w: int, h: int)
    requires forall i :: 0 <= i < |ps| ==> ValidParticle(ps[i])
    ensures AdvanceN(ps, 80, w, h) == []
  {
    AllDieWithin(ps, 80, w, h);
  }

  /** Advancing keeps every particle valid. */
  lemma AdvanceKeepsValid(ps: seq<Particle>, w: int, h: int)
    requires forall i :: 0 <= i < |ps| ==> ValidParticle(ps[i])
    ensures forall i :: 0 <= i < |Advance(ps, w, h)| ==> ValidParticle(Advance(ps, w, h)[i])
  {
    var next := Advance(ps, w, h);
    var stepped := StepAll(ps);
    SurvivorsMembers(stepped, w, h);
    StepAllPointwise(ps);
    forall i | 0 <= i < |next|
      ensures ValidParticle(next[i])
    {
      assert next[i] in next;
      var j :| 0 <= j < |stepped| && stepped[j] == next[i];
    }
  }

  // ---- Rendering -------------------------------------------------------

  /** The canvas cell of a particle: `int(p.x)`, `int(p.y)`, which truncates
      toward zero. */
  function Col(p: Particle): int { TruncDiv(p.x, Unit) }
  function Row(p: Particle): int { TruncDiv(p.y, Unit) }

  predicate Lands(p: Particle, row: int, col: int) {
    Row(p) == row && Col(p) == col
  }

  /** A rectangular grid of `h` rows of `w` cells. */
  predicate IsGrid(g: seq<seq<char>>, w: nat, h: nat) {
    |g| == h && forall i :: 0 <= i < h ==> |g[i]| == w
  }

  function Blank(w: nat, h: nat): (g: seq<seq<char>>)
    ensures IsGrid(g, w, h)
    ensures forall i, j :: 0 <= i < h && 0 <= j < w ==> g[i][j] == ' '
  {
    seq(h, _ => Repeat(' ', w))
  }

  /** Draw one particle: its glyph replaces the cell it lands on, if that
      cell is on the canvas. */
  function Place(g: seq<seq<char>>, p: Particle, w: nat, h: nat): (r: seq<seq<char>>)
    requires IsGrid(g, w, h)
    ensures IsGrid(r, w, h)
  {
    var row, col := Row(p), Col(p);
    if 0 <= col < w && 0 <= row < h then g[row := g[row][col := p.glyph]] else g
  }

  /** Draw the particles in order, so that a later one overwrites an earlier one. */
  function Paint(g: seq<seq<char>>, ps: seq<Particle>, w: nat, h: nat): (r: seq<seq<char>>)
    requires IsGrid(g, w, h)
    ensures IsGrid(r, w, h)
    decreases |ps|
  {
    if |ps| == 0 then g else Paint(Place(g, ps[0], w, h), ps[1..], w, h)
  }

  lemma PlaceCell(g: seq<seq<char>>, p: Particle, w: nat, h: nat, row: int, col: int)
    requires IsGrid(g, w, h) && 0 <= row < h && 0 <= col < w
    ensures Place(g, p, w, h)[row][col] == if Lands(p, row, col) then p.glyph else g[row][col]
  {
  }

  /** A cell shows the glyph of the last particle landing on it, and keeps
      its old content when none does. */
  lemma {:induction false} PaintCell(g: seq<seq<char>>, ps: seq<Particle>, w: nat, h: nat, row: int, col: int)
    requires IsGrid(g, w, h) && 0 <= row < h && 0 <= col < w
    ensures (forall k :: 0 <= k < |ps| ==> !Lands(ps[k], row, col)) ==> Paint(g, ps, w, h)[row][col] == g[row][col]
    ensures forall k :: 0 <= k < |ps| && Lands(ps[k], row, col)
                        && (forall j :: k < j < |ps| ==> !Lands(ps[j], row, col))
                        ==> Paint(g, ps, w, h)[row][col] == ps[k].glyph
    decreases |ps|
  {
    if |ps| > 0 {
      var g' := Place(g, ps[0], w, h);
      var rest := ps[1..];
      PaintCell(g', rest, w, h, row, col);
      PlaceCell(g, ps[0], w, h, row, col);
      assert Paint(g, ps, w, h) == Paint(g', rest, w, h);
      assert forall j :: 0 <= j < |rest| ==> rest[j] == ps[j + 1];
      forall k | 0 <= k < |ps| && Lands(ps[k], row, col) && (forall j :: k < j < |ps| ==> !Lands(ps[j], row, col))
        ensures Paint(g, ps, w, h)[row][col] == ps[k].glyph
      {
        if k > 0 {
          assert rest[k - 1] == ps[k];
          assert forall j :: k - 1 < j < |rest| ==> !Lands(rest[j], row, col);
        } else {
          assert forall j :: 0 <= j < |rest| ==> !Lands(rest[j], row, col);
        }
      }
    }
  }

  /** Painting with non-newline glyphs onto a newline-free grid leaves it newline-free. */
  lemma {:induction false} PaintNoNewline(g: seq<seq<char>>, ps: seq<Particle>, w: nat, h: nat)
    requires IsGrid(g, w, h)
    requires forall i :: 0 <= i < h ==> '\n' !in g[i]
    requires forall k :: 0 <= k < |ps| ==> ps[k].glyph != '\n'
    ensures forall i :: 0 <= i < h ==> '\n' !in Paint(g, ps, w, h)[i]
    decreases |ps|
  {
    if |ps| > 0 {
      var g' := Place(g, ps[0], w, h);
      forall i | 0 <= i < h
        ensures '\n' !in g'[i]
      {
        if i == Row(ps[0]) && 0 <= Col(ps[0]) < w {
          assert forall j :: 0 <= j < w ==> g'[i][j] == g[i][j] || g'[i][j] == ps[0].glyph;
        }
      }
      PaintNoNewline(g', ps[1..], w, h);
    }
  }

  /** The canvas of the particles on a w × h viewport. */
  function Canvas(ps: seq<Particle>, w: nat, h: nat): (g: seq<seq<char>>)
    ensures IsGrid(g, w, h)
  {
    Paint(Blank(w, h), ps, w, h)
  }

  /** Each row followed by a newline. */
  function RowsText(rows: seq<seq<char>>): string
  {
    if |rows| == 0 then "" else rows[0] + "\n" + RowsText(rows[1..])
  }

  /** `renderParticles`: nothing when there are no particles or the viewport
      has no area, otherwise the canvas, one line per row. Styling is left
      out, so every cell is one rune. */
  function RenderParticles(ps: seq<Particle>, w: int, h: int): (r: string)
    ensures r == "" <==> |ps| == 0 || w <= 0 || h <= 0
  {
    if |ps| == 0 then ""
    else if w <= 0 || h <= 0 then ""
    else RowsText(Canvas(ps, w, h))
  }

  lemma {:induction false} SplitRowsText(rows: seq<seq<char>>)
    requires forall i :: 0 <= i < |rows| ==> '\n' !in rows[i]
    ensures Split(RowsText(rows), '\n') == rows + [""]
    decreases |rows|
  {
    if |rows| > 0 {
      SplitRowsText(rows[1..]);
      SplitLine(rows[0], RowsText(rows[1..]), '\n');
      assert rows == [rows[0]] + rows[1..];
    }
  }

  /** The rendered text is `h` lines of `w` cells, each line ending in a
      newline; each cell is the glyph of the last particle landing on it,
      or a space. */
  lemma RenderedShape(ps: seq<Particle>, w: int, h: int)
    requires |ps| > 0 && w > 0 && h > 0
    requires forall k :: 0 <= k < |ps| ==> ValidParticle(ps[k])
    ensures var lines := Split(RenderParticles(ps, w, h), '\n');
            |lines| == h + 1 && lines[h] == "" && lines[..h] == Canvas(ps, w, h)
            && forall i :: 0 <= i < h ==> |lines[i]| == w
  {
    var g := Canvas(ps, w, h);
    assert '\n' !in Glyphs;
    PaintNoNewline(Blank(w, h), ps, w, h);
    SplitRowsText(g);
    assert (g + [""])[..h] == g;
  }

  /** A particle just left of column 0 (x in (-1, 0)) is still drawn in column 0. */
  lemma NearEdgeDrawsInColumnZero(p: Particle)
    requires -Unit < p.x < 0
    ensures Col(p) == 0
  {
    TruncDivNearZero(p.x, Unit);
  }
}

=== FILE: text.dfy ===
/** The pieces of Go's `strings` and `fmt` packages the core relies on,
    over strings as sequences of runes. */
module Text {

  /** Number of occurrences of `c` in `s`. */
  function Count(s: string, c: char): nat
  {
    if |s| == 0 then 0 else (if s[0] == c then 1 else 0) + Count(s[1..], c)
  }

  /** `strings.Split(s, sep)` for a one-rune separator: the pieces between
      separators, so an empty string splits into one empty piece. */
  function Split(s: string, sep: char): (r: seq<string>)
    ensures |r| == Count(s, sep) + 1
    ensures forall i :: 0 <= i < |r| ==> sep !in r[i]
    decreases |s|
  {
    if |s| == 0 then [""]
    else
      var rest := Split(s[1..], sep);
      if s[0] == sep then [""] + rest
      else [[s[0]] + rest[0]] + rest[1..]
  }

  /** `strings.Join(parts, sep)`. */
  function Join(parts: seq<string>, sep: string): string
  {
    if |parts| == 0 then ""
    else if |parts| == 1 then parts[0]
    else parts[0] + sep + Join(parts[1..], sep)
  }

  /** `strings.Repeat(s, n)` for a one-rune `s` and a count the caller has
      already checked to be non-negative. */
  function Repeat(c: char, n: nat): (r: string)
    ensures |r| == n
    ensures forall i :: 0 <= i < n ==> r[i] == c
  {
    if n == 0 then "" else [c] + Repeat(c, n - 1)
  }

  /** `fmt`'s `%-Ns`: left-justified in a field of `width` runes. */
  function PadRight(s: string, width: nat): (r: string)
    ensures |r| == if |s| >= width then |s| else width
    ensures r[..|s|] == s
    ensures forall i :: |s| <= i < |r| ==> r[i] == ' '
  {
    if |s| >= width then s else s + Repeat(' ', width - |s|)
  }

  /** `fmt`'s `%Nd` and `%Ns`: right-justified in a field of `width` runes. */
  function PadLeft(s: string, width: nat): (r: string)
    ensures |r| == if |s| >= width then |s| else width
    ensures r[|r| - |s|..] == s
    ensures forall i :: 0 <= i < |r| - |s| ==> r[i] == ' '
  {
    if |s| >= width then s else Repeat(' ', width - |s|) + s
  }

  function DigitChar(d: nat): char
    requires d < 10
  {
    ('0' as int + d) as char
  }

  /** The number a string of decimal digits denotes, most significant first. */
  function DigitsValue(s: string): nat
    requires forall i :: 0 <= i < |s| ==> '0' <= s[i] <= '9'
  {
    if |s| == 0 then 0 else DigitsValue(s[..|s| - 1]) * 10 + (s[|s| - 1] as int - '0' as int)
  }

  /** `s` is all digits and denotes `n`. */
  predicate PrintsNumber(s: string, n: int) {
    (forall i :: 0 <= i < |s| ==> '0' <= s[i] <= '9') && DigitsValue(s) == n
  }

  /** Any string equal to the decimal rendering of a non-negative number
      is all digits and denotes that number. */
  lemma DigitsDenote(s: string, n: int)
    requires n >= 0 && s == Decimal(n)
    ensures PrintsNumber(s, n)
  {
  }

  /** The decimal digits of `n`, without leading zeros. */
  function NatDigits(n: nat): (r: string)
    ensures |r| >= 1
    ensures forall i :: 0 <= i < |r| ==> '0' <= r[i] <= '9'
    ensures DigitsValue(r) == n
    ensures r[0] == '0' ==> n == 0 && |r| == 1
  {
    if n < 10 then [DigitChar(n)]
    else
      var front := NatDigits(n / 10);
      var r := front + [DigitChar(n % 10)];
      assert r[..|r| - 1] == front;
      r
  }

  /** `fmt`'s `%d`: optional minus sign, then the decimal digits, with no
      leading zero except for 0 itself. */
  function Decimal(n: int): (r: string)
    ensures |r| >= 1
    ensures (r[0] == '-') <==> n < 0
    ensures r[0] == '0' ==> r == "0"
    ensures n < 0 ==> |r| >= 2 && r[1] != '0'
    ensures n >= 0 ==> (forall i :: 0 <= i < |r| ==> '0' <= r[i] <= '9') && DigitsValue(r) == n
    ensures n < 0 ==> |r| >= 2 && (forall i :: 1 <= i < |r| ==> '0' <= r[i] <= '9') && DigitsValue(r[1..]) == -n
  {
    if n < 0 then
      var r := "-" + NatDigits(-n);
      assert r[1..] == NatDigits(-n);
      r
    else NatDigits(n)
  }

  /** Different numbers print differently. */
  lemma DecimalInjective(a: int, b: int)
    requires Decimal(a) == Decimal(b)
    ensures a == b
  {
    if a < 0 {
      assert Decimal(a)[1..] == Decimal(b)[1..];
    }
  }

  /** A separator-free prefix glues onto the first piece of what follows. */
  lemma {:induction false} SplitSepFreePrefix(a: string, t: string, sep: char)
    requires sep !in a
    ensures Split(a + t, sep) == [a + Split(t, sep)[0]] + Split(t, sep)[1..]
    decreases |a|
  {
    if |a| > 0 {
      assert (a + t)[1..] == a[1..] + t;
      SplitSepFreePrefix(a[1..], t, sep);
      assert [a[0]] + (a[1..] + Split(t, sep)[0]) == a + Split(t, sep)[0];
    } else {
      var r := Split(t, sep);
      assert a + t == t;
      assert a + r[0] == r[0];
      assert r == [r[0]] + r[1..];
    }
  }

  /** A separator-free line followed by the separator splits off as one piece. */
  lemma SplitLine(a: string, b: string, sep: char)
    requires sep !in a
    ensures Split(a + [sep] + b, sep) == [a] + Split(b, sep)
  {
    SplitSepFreePrefix(a, [sep] + b, sep);
    assert a + [sep] + b == a + ([sep] + b);
    assert ([sep] + b)[1..] == b;
    assert a + Split([sep] + b, sep)[0] == a;
  }

  /** Joining the pieces of a split gives back the original string. */
  lemma {:induction false} JoinSplit(s: string, sep: char)
    ensures Join(Split(s, sep), [sep]) == s
    decreases |s|
  {
    if |s| > 0 {
      var rest := Split(s[1..], sep);
      JoinSplit(s[1..], sep);
      if s[0] == sep {
        assert ([""] + rest)[1..] == rest;
      } else if |rest| == 1 {
      } else {
        var parts := [[s[0]] + rest[0]] + rest[1..];
        assert parts[1..] == rest[1..];
        assert s == [s[0]] + s[1..];
      }
    }
  }

  /** Splitting a join of separator-free pieces gives back the pieces. */
  lemma {:induction false} SplitJoin(parts: seq<string>, sep: char)
    requires |parts| >= 1
    requires forall i :: 0 <= i < |parts| ==> sep !in parts[i]
    ensures Split(Join(parts, [sep]), sep) == parts
    decreases |parts|
  {
    if |parts| == 1 {
      SplitSepFreePrefix(parts[0], "", sep);
      assert parts[0] + "" == parts[0];
    } else {
      SplitJoin(parts[1..], sep);
      SplitLine(parts[0], Join(parts[1..], [sep]), sep);
      assert parts == [parts[0]] + parts[1..];
    }
  }
}

=== FILE: wrappers.dfy ===
/** Go's nil pointers: a getter either yields a value or nothing. */
module Wrappers {

  datatype Option<+T> = None | Some(value: T)
}
